=== FILE: README.md ===
# Mobile-number registration: a Dafny model

The `mobile_number` Django app is the first step of user registration.
A client posts a mobile number behind an API-key gate. The app then does the following, in order:

- It refuses numbers that already have a user profile (409).
- It rate-limits a number to ten requests per 24 hours (429).
- It logs the request.
- It validates the payload (400).
- It creates an entry (201).

Creating an entry works like this:

- A fresh 256-bit AES key encrypts the number in CFB mode.
- The stored text is base64 of `iv || ciphertext`.
- The SHA-256 hex digest of the number is kept for lookup.
- The entry gets an id `UR-<timestamp>-<md5 prefix>-<6 random chars>`.
- A background thread stores the key as hex in a key vault under `encryption-key-<id>`, and only then saves the entry.
- Another thread deletes an earlier entry for the same number, together with its key.

Two management commands complete the picture:

- `retrieve_entries` reads every entry back, using a per-process key cache, and decrypts it.
- `test_data_entry` prompts until a line matches `^\+\d{1,3}\d{10}$`, then creates an entry.

The model is pure Dafny:

- Collections are sequences and maps.
- The clock, the random sources, the remote stores' failures and the cryptographic primitives are parameters.
- Background threads are modelled after they have run to completion.
- The codecs the app relies on are modelled: base64 (section 4 of RFC 4648) with a strict decoder for canonical text, strict UTF-8, hex, and CFB-128 over an abstract block cipher.
- Their round trips are proved.

Modules:

- `Results`, `Bytes`, `Primitives`: the `Option`/`Result` types, byte and character classes, and the primitive parameters (AES block function, MD5, SHA-256).
- `Hex`, `Utf8`, `Base64`, `Cfb`: `bytes.hex`/`bytes.fromhex`, `str.encode`/`bytes.decode('utf-8')`, `b64encode`/`b64decode`, and AES-CFB as `cryptography` implements it.
- `Models`: `MobileNumber`. This covers the entry, its id, encryption and hash, dedup, the store and vault threads, `create_entry` and the TTL index.
- `RequestLog`: `VerificationRequestLog.count_requests` and `log_request`.
- `Views`: `MobileNumberCreateView.post` over sequences of requests, and `trigger_otp_management`.
- `RetrieveEntries`: the `retrieve_entries` command.
- `Middleware`: `APIKeyMiddleware.process_request`.
- `DataEntry`: the `test_data_entry` command.
- `Lifecycle`: creation followed by retrieval.

## Model

| member | source | states |
|---|---|---|
| Hex.ToHex | user_registrations/mobile_number/models.py:80 | `bytes.hex()` gives two lower-case hex digits per byte |
| Hex.FromHex | user_registrations/mobile_number/management/commands/retrieve_entries.py:25 | `bytes.fromhex` yields at most one byte per two characters, accepts only whitespace and hex digits, and gives no bytes for all-whitespace text |
| Hex.FromHexToHex | user_registrations/mobile_number/management/commands/retrieve_entries.py:25 | `bytes.fromhex` of a key's `hex()` rendering gives back the same key bytes |
| Hex.ToHexInjective | user_registrations/mobile_number/models.py:88 | distinct digests have distinct hex renderings |
| Utf8.DecodeEncode | user_registrations/mobile_number/management/commands/retrieve_entries.py:38 | decoding the UTF-8 encoding of any string gives the string back |
| Utf8.EncodeDecode | user_registrations/mobile_number/management/commands/retrieve_entries.py:38 | bytes that decode successfully are exactly the encoding of what they decode to, so the decoder accepts only canonical UTF-8 |
| Utf8.EncodeInjective | user_registrations/mobile_number/models.py:88 | distinct numbers have distinct UTF-8 encodings |
| Base64.Encode | user_registrations/mobile_number/models.py:70 | the text has 4 characters per started 3-byte group, all from the base64 alphabet or padding |
| Base64.Decode | user_registrations/mobile_number/management/commands/retrieve_entries.py:33 | decoded text is whole 4-character groups of alphabet and padding characters, and yields three bytes per group, less at most two for padding |
| Base64.DecodeEncode | user_registrations/mobile_number/management/commands/retrieve_entries.py:33 | `b64decode` inverts `b64encode` on every byte string |
| Cfb.DecryptEncrypt | user_registrations/mobile_number/management/commands/retrieve_entries.py:35-37 | CFB decryption under the same key and IV inverts CFB encryption for every plaintext length, including a partial last block |
| Models.KeyNameInjective | user_registrations/mobile_number/models.py:104 | two entries share a vault secret name exactly when they share an id |
| Models.GenerateCustomId | user_registrations/mobile_number/models.py:55-59 | the id is `UR-`, the timestamp, `-`, the first ten hex digits of the MD5 of the text, `-` and the drawn characters, each at its fixed position |
| Models.CustomIdFormat | user_registrations/mobile_number/models.py:55-59 | the id matches `UR-\d{14}-[0-9a-f]{10}-[A-Z0-9]{6}` and its fields are the timestamp, the first ten hex digits of the MD5, and the six drawn characters |
| Models.EncryptMobileNumber | user_registrations/mobile_number/models.py:61-70 | encryption fails exactly when the key is not 16, 24 or 32 bytes long |
| Models.EncryptedFrame | user_registrations/mobile_number/models.py:64-70 | the base64 text decodes to the 16-byte IV followed by a ciphertext that decrypts to the number's UTF-8 bytes |
| Models.HashMobileNumber | user_registrations/mobile_number/models.py:85-88 | the lookup hash is 64 lower-case hex digits |
| Models.HashInjective | user_registrations/mobile_number/models.py:85-88 | if SHA-256 does not collide on the encodings of two numbers, the numbers share a lookup hash only when they are equal |
| Models.FindProfile | user_registrations/mobile_number/models.py:126 | `find_one` finds a profile document carrying the hash, or reports that none does |
| Models.CheckUserProfileExists | user_registrations/mobile_number/models.py:117-133 | true exactly when some profile document carries the number's hash |
| Models.FirstWithHash | user_registrations/mobile_number/models.py:93-94 | the lookup finds the first entry carrying the hash, or reports that none does |
| Models.RemoveByIdMembers | user_registrations/mobile_number/models.py:108 | deleting a document keeps exactly the entries with another id |
| Models.Save | user_registrations/mobile_number/models.py:181 | an upsert by primary key: the entry is present afterwards, no other id is lost, and a new id is appended |
| Models.SaveKeepsUnique | user_registrations/mobile_number/models.py:181 | saving keeps primary keys unique |
| Models.AsyncDelete | user_registrations/mobile_number/models.py:97-111 | the secret is deleted first, and a failure there (including an absent secret) leaves the entry in place |
| Models.AsyncDeleteKeepsPairing | user_registrations/mobile_number/models.py:104-108 | if the entry delete does not fail, every remaining entry still has its key in the vault |
| Models.StoreData | user_registrations/mobile_number/models.py:175-184 | the key is written as hex with the entry's expiry, and the entry is saved only if that write succeeded |
| Models.StoreDataKeepsPairing | user_registrations/mobile_number/models.py:178-181 | whichever call fails, the store thread never leaves an entry without its key |
| Models.BackgroundTasksCommute | user_registrations/mobile_number/models.py:113-114 | the dedup and store threads give the same stores whichever finishes first |
| Models.BuildEntry | user_registrations/mobile_number/models.py:150-172 | the entry holds the ciphertext, the id generated from it, the number's hash, "UR", "Not verified", and an expiry 600 seconds after creation |
| Models.RunThreads | user_registrations/mobile_number/models.py:148-188 | the dedup thread runs exactly when an entry with the hash exists; the store thread stops at the vault exactly when the vault write fails, and otherwise leaves the hex key under the entry's secret name; without faults, and with every entry's key in the vault, the collection is the survivors of dedup plus the new entry, and the vault loses the first same-hash entry's key and gains the new one |
| Models.CreateEntry | user_registrations/mobile_number/models.py:145-190 | fails exactly when the synchronous lookup fails; otherwise returns the built entry and writes its key to the vault unless that write fails; without faults, and with every entry's key in the vault, the stores are those dedup leaves plus the new entry and its key |
| Models.CreateEntryLeavesOneLive | user_registrations/mobile_number/models.py:145-190 | with unique ids and at most one entry per hash, a fault-free creation leaves exactly one entry with the number's hash (the new one) and keeps ids unique |
| Models.AsWrittenTtlKeepsExpiredEntry | user_registrations/mobile_number/models.py:37-41 | under the declared index an entry is still present 900 seconds after creation, past its expiry |
| Models.EvictBoundsLifetime | user_registrations/mobile_number/models.py:162 | with eviction at `expiry_at`, no entry outlives 600 seconds |
| RequestLog.CountRequests | user_registrations/mobile_number/models.py:209-218 | `count_requests` returns how many log records carry the number's hash and a `requested_at` no earlier than 24 hours before the call |
| RequestLog.CountMatchingIsQuerySize | user_registrations/mobile_number/models.py:209-218 | the count is the number of records with the hash requested in the last 24 hours |
| RequestLog.LogRequest | user_registrations/mobile_number/models.py:220-226 | logging appends one record with the number's hash and the stamp it is given, keeping earlier records. As written, that stamp is the class-definition time (models.py:194); `Views.Post` passes it in as the handling's `logStamp` |
| RequestLog.LogRequestCounts | user_registrations/mobile_number/models.py:209-226 | a logged request adds one to every count for that number within the next 24 hours |
| RequestLog.LogRequestLeavesOthers | user_registrations/mobile_number/models.py:209-226 | logging for one number leaves the count of a number with another hash unchanged |
| RequestLog.AsWrittenLogIsNeverCounted | user_registrations/mobile_number/models.py:194 | with the field default as written, once the process is older than 24 hours no logged request is ever counted |
| Views.Post | user_registrations/mobile_number/views.py:19-52 | 409 iff the profile exists; 429 iff not and ten or more requests were counted; neither touches state; otherwise the request is logged with the handling's log stamp; 400 iff validation fails, leaving the stores unchanged; 201 iff no profile, fewer than ten counted, a valid payload and a working dedup lookup, and then the stores are those `create_entry` leaves, the body has the built entry's fields, and the OTP call gets its ciphertext and id; a 500 comes only from a missing number or a failed lookup and leaves the stores unchanged |
| Views.CreatedBodyIsFixed | user_registrations/mobile_number/views.py:43-50 | a 201 body has prefix "UR", "Not verified", the request time, and an expiry 600 seconds later |
| Views.ConflictIgnoresLog | user_registrations/mobile_number/views.py:23-24 | a profile conflict is answered the same whatever the request log holds |
| Views.ServicePrefixIgnored | user_registrations/mobile_number/views.py:20-38 | the request's `service_prefix` has no effect |
| Views.AtMostTenPerWindow | user_registrations/mobile_number/views.py:27-32 | for a run of requests for one number, each logged at the time it is handled (the intended stamping), at most ten get past the rate check within one 24-hour window |
| Views.FirstTenPass | user_registrations/mobile_number/views.py:27-32 | for a run of requests for one number, with the intended stamping and an empty count, the first ten requests in a window pass the rate check |
| Views.EleventhIsRefused | user_registrations/mobile_number/views.py:27-32 | for a run of requests for one number, with the intended stamping, the tenth request in a window passes and the eleventh gets 429 |
| Views.AsWrittenRunNeverRefuses | user_registrations/mobile_number/models.py:194 | as written, once the process is more than 24 hours old, every request for a number without a profile passes the rate check, however many arrive, and nothing is ever counted for it |
| Views.TriggerOtpManagement | user_registrations/mobile_number/views.py:54-83 | the POST carries the document id, the ciphertext, the `M-API-KEY` header and JSON content type; only a status other than 200 or an exception is logged |
| Views.OtpGetsCiphertext | user_registrations/mobile_number/views.py:38-41 | the OTP service receives the stored ciphertext of the validated number and the entry id returned in the body |
| RetrieveEntries.GetEncryptionKey | user_registrations/mobile_number/management/commands/retrieve_entries.py:15-30 | a cached key is returned without reading the vault; otherwise `encryption-key-<id>` is read and hex-decoded; a read that raises, a missing secret and bad hex fail with `VaultReadFailed`, `SecretNotFound` and `InvalidKeyHex` respectively; success caches the key, and the cache only grows |
| RetrieveEntries.DecryptMobileNumber | user_registrations/mobile_number/management/commands/retrieve_entries.py:32-38 | bad base64, a wrong key size and a short IV fail, in that order, with their own errors; past those checks, decryption succeeds exactly when the CFB plaintext is valid UTF-8, and otherwise fails with `InvalidUtf8`; a result is the UTF-8 text whose encoding is the CFB decryption of the bytes after the first 16 |
| RetrieveEntries.DecryptEncrypt | user_registrations/mobile_number/management/commands/retrieve_entries.py:32-38 | whatever `encrypt_mobile_number` produced under a key decrypts under that key to the original number |
| RetrieveEntries.Handle | user_registrations/mobile_number/management/commands/retrieve_entries.py:40-64 | no entries gives the warning; otherwise one report per entry in order, each decrypted with the cached or vault key or a failure that does not stop the loop; cached keys are never changed and new ones come from vault reads that did not raise |
| Middleware.ProcessRequest | user_registrations/mobile_number/middleware.py:6-24 | a missing or empty header gets "API key is missing"; a request passes exactly when the header equals one of the two configured keys; any other header gets "Unauthorized" |
| Middleware.UnsetKeysRejectAll | user_registrations/mobile_number/middleware.py:14-21 | with neither key configured, every request is refused |
| Middleware.ConfiguredKeysPass | user_registrations/mobile_number/middleware.py:14-24 | a request carrying either configured key passes |
| DataEntry.PatternIsPhoneNumber | user_registrations/mobile_number/management/commands/test_data_entry.py:13 | the pattern accepts exactly '+' followed by 11 to 13 ASCII digits, allowing one trailing newline |
| DataEntry.Validate | user_registrations/mobile_number/management/commands/test_data_entry.py:13 | a left-to-right scan accepts exactly the strings the pattern matches |
| DataEntry.Handle | user_registrations/mobile_number/management/commands/test_data_entry.py:8-27 | every line before the first accepted one is rejected; running out of lines ends the command; otherwise the first accepted line goes to `create_entry`, and a lookup failure is reported rather than raised |
| Lifecycle.CreatedEntryReadsBack | user_registrations/mobile_number/management/commands/retrieve_entries.py:46-59 | after a fault-free creation the entry is stored, its vault key is exactly the key that encrypted it, and the report shows the submitted number with the entry's fields |

## Left out

- AES, MD5 and SHA-256: these are parameters. The block function is abstract, and CFB-128 is modelled over it.
- `os.urandom`, `random.choices` and the clock: these are parameters (`Draws`, `Instant`). The `%Y%m%d%H%M%S` rendering of the clock is a given string.
- Environment variables, `DefaultAzureCredential`, `MongoClient` connections and the `requests` transport are not modelled as such. The remote calls of `create_entry` and its threads have a `Faults` flag each, and the vault reads of `retrieve_entries` have a set of failing secret names. Other remote calls are listed below.
- RetrieveEntries.GetEncryptionKey: a failing vault read is one error, `VaultReadFailed`, whatever the cause: network, credentials, or `SecretClient` built without a vault URI. `RetrieveEntries.Handle` takes the result of `MobileNumber.objects.all()` as given. In the source that query can raise, which ends the command before any report.
- Thread interleaving at the level of single remote calls: each background thread is modelled as having run to completion. `Models.BackgroundTasksCommute` shows that the order of the two threads does not matter.
- Views.AtMostTenPerWindow: requests are handled one at a time, each seeing the world its predecessor left (`Views.Run`). In the source, `count_requests` and `log_request` (views.py:27-32) are separate calls, and concurrent handlers can read the same count. Two requests that both see nine counted records both pass, so more than ten can pass in one window.
- Views.EleventhIsRefused: holds for requests handled one at a time, as for `Views.AtMostTenPerWindow`. An eleventh request handled concurrently with the tenth can see nine counted records and pass.
- Models.CreateEntryLeavesOneLive: covers one creation at a time. Two concurrent `create_entry` calls for one number can both find nothing to dedup and leave two live entries with the same hash.
- Models.CreateEntry: when the dedup lookup succeeds but a background thread fails, the model says which writes happened. It does not model the log lines or the thread's re-raised exception, which no caller can see.
- Base64.Decode: a strict decoder. It rejects the non-canonical text Python's `b64decode` accepts, described on the next line.
- RetrieveEntries.DecryptMobileNumber: the decoder is strict, and `b64decode` without `validate=True` is not. Python drops characters outside the alphabet, stops at the first complete padding and skips a `=` seen before two data characters of a group. So `b64decode("QQ==QQ==")` and `b64decode("=QQ==")` both give `b'A'`, where the model reports `InvalidBase64`. The app only stores text that `b64encode` wrote, on which the two agree.
- Python accepts lone surrogates in `str` but cannot encode them. Dafny `char` excludes surrogates, so that `UnicodeEncodeError` is not modelled.
- `\d` in the data-entry pattern is read as ASCII digits. Python's `re` also matches other Unicode decimal digits.
- `input()` strips the line terminator. The model keeps what `$` allows: at most one trailing newline.
- The `EOFError` raised when the prompt's input runs out is modelled as the `InputExhausted` outcome.
- The DRF serializer (`serializers.py`) is not part of this model. `Views.Post` takes it as a `Validator` parameter.
- The profile collection is a given sequence of `mobile_number_hash` values. How `_get_user_profile_db` connects is not modelled.
- Views.Post: one instant, `now`, is both the clock read of `count_requests` (models.py:215) and the `created_at` of the entry (models.py:161). The source reads the clock separately for each, a few milliseconds apart. Only `stamp`, the id's timestamp, is a separate parameter.
- Views.Post: `check_user_profile_exists`, `count_requests` and `log_request` raising is not modelled. In the source each of them gives a 500 and leaves no new record. The profile collection and the request log are taken as always reachable; only the `create_entry` lookup has a fault flag.
- Mongo's millisecond precision for dates, and the time-series collection options: instants are exact microseconds.
- The vault does not enforce `expires_on`, and soft-delete recovery is not modelled. A deleted secret is simply absent.
- The response bodies and message texts of the views and commands are left out, except the middleware's error strings. The model keeps their status and the data they carry.
- The other files of the app are not part of this model: `urls.py`, `routing.py`, `apps.py`, `serializers.py`, and the `check_mongodb`, `final_check`, `generate_apikeys` and `test_create_endpoint` commands.

## Findings

| source | as written | input that shows it | evidently intended | confidence | as-written member | corrected member |
|---|---|---|---|---|---|---|
| user_registrations/mobile_number/models.py:194 | `requested_at` defaults to `datetime.now(timezone.utc)`, which is evaluated once, when the class is defined. `log_request` relies on that default, so every record carries the process start time. | A process started more than 24 hours ago. Eleven requests for a number without a profile all pass the rate check, so the eleventh is not refused; with a valid payload and no faults it gets 201. | Each record is stamped when it is logged (`default=lambda: datetime.now(timezone.utc)`), so the eleventh request within 24 hours gets 429. | high, not executed | Views.AsWrittenRunNeverRefuses | Views.EleventhIsRefused |
| user_registrations/mobile_number/models.py:37-41 | The TTL index is on `expiry_at` with `expireAfterSeconds: 600`, but `expiry_at` is already 600 seconds after creation. | An entry created at time t is still stored at t + 900 s, although it expired at t + 600 s. | Documents are removed at `expiry_at` (`expireAfterSeconds: 0`), so an entry lives 600 seconds. | low, not executed: the collection is also declared time-series (models.py:33-36), and MongoDB restricts TTL indexes on such collections, so the index may not be created as declared at all | Models.AsWrittenTtlKeepsExpiredEntry | Models.EvictBoundsLifetime |

=== FILE: base64.dfy ===
/**
 * The standard Base64 alphabet with `=` padding (section 4 of RFC 4648), as
 * `base64.b64encode` writes it and `base64.b64decode` reads it back.
 */
module Base64 {
  import opened Bytes
  import opened Results

  /** `b64decode` raises `binascii.Error` on input it cannot read. */
  datatype Base64Error = InvalidBase64

  /** The alphabet character for a 6-bit value. */
  function Sextet(v: int): (c: char)
    requires 0 <= v < 64
  {
    if v < 26 then ('A' as int + v) as char
    else if v < 52 then ('a' as int + v - 26) as char
    else if v < 62 then ('0' as int + v - 52) as char
    else if v == 62 then '+'
    else '/'
  }

  /** The 6-bit value of an alphabet character; `None` for padding and everything else. */
  function SextetValue(c: char): (r: Option<int>)
    ensures r.Some? ==> 0 <= r.value < 64 && Sextet(r.value) == c
  {
    if 'A' <= c <= 'Z' then Some(c as int - 'A' as int)
    else if 'a' <= c <= 'z' then Some(c as int - 'a' as int + 26)
    else if '0' <= c <= '9' then Some(c as int - '0' as int + 52)
    else if c == '+' then Some(62)
    else if c == '/' then Some(63)
    else None
  }

  lemma SextetValueOfSextet(v: int)
    requires 0 <= v < 64
    ensures SextetValue(Sextet(v)) == Some(v)
  {
  }

  /** A character of encoded text: an alphabet character or padding, all of them ASCII. */
  predicate IsBase64Char(c: char) {
    (SextetValue(c).Some? || c == '=') && c as int < 0x80
  }

  predicate IsBase64Text(s: string) {
    forall i :: 0 <= i < |s| ==> IsBase64Char(s[i])
  }

  /** The four characters for the three bytes `b0 b1 b2`. */
  function EncodeGroup(b0: byte, b1: byte, b2: byte): (s: string)
    ensures |s| == 4 && IsBase64Text(s)
  {
    [Sextet(b0 / 4), Sextet((b0 % 4) * 16 + b1 / 16), Sextet((b1 % 16) * 4 + b2 / 64), Sextet(b2 % 64)]
  }

  /** The padded group for a final one or two bytes. */
  function EncodeLast(b: seq<byte>): (s: string)
    requires 1 <= |b| <= 2
    ensures |s| == 4 && IsBase64Text(s)
  {
    if |b| == 1 then [Sextet(b[0] / 4), Sextet((b[0] % 4) * 16), '=', '=']
    else [Sextet(b[0] / 4), Sextet((b[0] % 4) * 16 + b[1] / 16), Sextet((b[1] % 16) * 4), '=']
  }

  /** `base64.b64encode(b).decode()`: four characters for every three bytes, the last group padded with `=`. */
  function Encode(b: seq<byte>): (s: string)
    ensures |s| == 4 * ((|b| + 2) / 3)
    ensures IsBase64Text(s)
    decreases |b|
  {
    if |b| == 0 then []
    else if |b| < 3 then EncodeLast(b)
    else EncodeGroup(b[0], b[1], b[2]) + Encode(b[3..])
  }

  /** The three bytes four sextets stand for. */
  function DecodeGroup(v0: int, v1: int, v2: int, v3: int): seq<byte>
    requires 0 <= v0 < 64 && 0 <= v1 < 64 && 0 <= v2 < 64 && 0 <= v3 < 64
  {
    [v0 * 4 + v1 / 16, (v1 % 16) * 16 + v2 / 4, (v2 % 4) * 64 + v3]
  }

  /**
   * A strict base64 decoder: groups of four alphabet characters, the last
   * group possibly closed by one or two `=`; anything else is an error.
   * Leftover bits in the last character before padding are dropped, as
   * Python drops them.  On text in this canonical form, which is all
   * `b64encode` writes, it agrees with `base64.b64decode(s)`; Python's
   * non-validating decoder also accepts some non-canonical text (it skips
   * characters outside the alphabet, stops at the first complete padding and
   * ignores a `=` seen before two data characters of a group), which this
   * decoder rejects.
   */
  function Decode(s: string): (r: Result<seq<byte>, Base64Error>)
    ensures r.Ok? ==> |s| % 4 == 0 && IsBase64Text(s)
    ensures r.Ok? ==> 3 * (|s| / 4) - 2 <= |r.value| <= 3 * (|s| / 4)
    decreases |s|
  {
    if |s| == 0 then Ok([])
    else if |s| < 4 then Err(InvalidBase64)
    else
      match (SextetValue(s[0]), SextetValue(s[1]), SextetValue(s[2]), SextetValue(s[3]))
      case (Some(v0), Some(v1), Some(v2), Some(v3)) =>
        (match Decode(s[4..])
         case Ok(rest) =>
           GroupThenText(s);
           Ok(DecodeGroup(v0, v1, v2, v3) + rest)
         case Err(e) => Err(e))
      case (Some(v0), Some(v1), Some(v2), None) =>
        if |s| == 4 && s[3] == '=' then Ok(DecodeGroup(v0, v1, v2, 0)[..2])
        else Err(InvalidBase64)
      case (Some(v0), Some(v1), None, None) =>
        if |s| == 4 && s[2] == '=' && s[3] == '=' then Ok(DecodeGroup(v0, v1, 0, 0)[..1])
        else Err(InvalidBase64)
      case _ => Err(InvalidBase64)
  }

  /** Four alphabet characters followed by encoded text are encoded text, one group longer. */
  lemma GroupThenText(s: string)
    requires |s| >= 4 && forall i :: 0 <= i < 4 ==> SextetValue(s[i]).Some?
    requires |s[4..]| % 4 == 0 && IsBase64Text(s[4..])
    ensures |s| % 4 == 0 && |s| / 4 == |s[4..]| / 4 + 1 && IsBase64Text(s)
  {
    forall i | 4 <= i < |s|
      ensures IsBase64Char(s[i])
    {
      assert s[i] == s[4..][i - 4];
    }
  }

  lemma GroupArithmetic(b0: byte, b1: byte, b2: byte)
    ensures DecodeGroup(b0 / 4, (b0 % 4) * 16 + b1 / 16, (b1 % 16) * 4 + b2 / 64, b2 % 64) == [b0, b1, b2]
  {
    var v1 := (b0 % 4) * 16 + b1 / 16;
    var v2 := (b1 % 16) * 4 + b2 / 64;
    assert v1 / 16 == b0 % 4 && v1 % 16 == b1 / 16;
    assert v2 / 4 == b1 % 16 && v2 % 4 == b2 / 64;
  }

  lemma DecodeEncodeGroup(b0: byte, b1: byte, b2: byte, rest: string)
    ensures Decode(EncodeGroup(b0, b1, b2) + rest) ==
      match Decode(rest)
      case Ok(r) => Ok([b0, b1, b2] + r)
      case Err(e) => Err(e)
  {
    var s := EncodeGroup(b0, b1, b2) + rest;
    SextetValueOfSextet(b0 / 4);
    SextetValueOfSextet((b0 % 4) * 16 + b1 / 16);
    SextetValueOfSextet((b1 % 16) * 4 + b2 / 64);
    SextetValueOfSextet(b2 % 64);
    GroupArithmetic(b0, b1, b2);
    assert s[4..] == rest;
  }

  /** One byte left over: two sextets and two pads. */
  lemma DecodeEncodeOne(b0: byte)
    ensures Decode(EncodeLast([b0])) == Ok([b0])
  {
    var s := EncodeLast([b0]);
    var v0, v1 := b0 / 4, (b0 % 4) * 16;
    SextetValueOfSextet(v0);
    SextetValueOfSextet(v1);
    GroupArithmetic(b0, 0, 0);
    assert DecodeGroup(v0, v1, 0, 0)[..1] == [b0];
    assert SextetValue(s[2]) == None && SextetValue(s[3]) == None;
  }

  /** Two bytes left over: three sextets and one pad. */
  lemma DecodeEncodeTwo(b0: byte, b1: byte)
    ensures Decode(EncodeLast([b0, b1])) == Ok([b0, b1])
  {
    var s := EncodeLast([b0, b1]);
    var v0, v1, v2 := b0 / 4, (b0 % 4) * 16 + b1 / 16, (b1 % 16) * 4;
    SextetValueOfSextet(v0);
    SextetValueOfSextet(v1);
    SextetValueOfSextet(v2);
    GroupArithmetic(b0, b1, 0);
    assert DecodeGroup(v0, v1, v2, 0)[..2] == [b0, b1];
    assert SextetValue(s[3]) == None;
  }

  lemma DecodeEncodeLast(b: seq<byte>)
    requires 1 <= |b| <= 2
    ensures Decode(EncodeLast(b)) == Ok(b)
  {
    if |b| == 1 {
      assert b == [b[0]];
      DecodeEncodeOne(b[0]);
    } else {
      assert b == [b[0], b[1]];
      DecodeEncodeTwo(b[0], b[1]);
    }
  }

  lemma Regroup(b: seq<byte>)
    requires |b| >= 3
    ensures [b[0], b[1], b[2]] + b[3..] == b
  {
  }

  /** What `b64encode` writes, `b64decode` reads back unchanged. */
  lemma {:induction false} DecodeEncode(b: seq<byte>)
    ensures Decode(Encode(b)) == Ok(b)
    decreases |b|
  {
    if |b| == 0 {
    } else if |b| < 3 {
      DecodeEncodeLast(b);
    } else {
      DecodeEncode(b[3..]);
      DecodeEncodeGroup(b[0], b[1], b[2], Encode(b[3..]));
      Regroup(b);
    }
  }
}

=== FILE: bytes.dfy ===
/** Octets and the ASCII character classes the registration code relies on. */
module Bytes {

  /** One element of a Python `bytes` value. */
  type byte = x: int | 0 <= x < 256

  /** `\d` restricted to ASCII. */
  predicate IsAsciiDigit(c: char) {
    '0' <= c <= '9'
  }

  /** `[0-9a-f]`: what `hexdigest()` and `bytes.hex()` emit. */
  predicate IsLowerHexDigit(c: char) {
    '0' <= c <= '9' || 'a' <= c <= 'f'
  }

  /** `[A-Z0-9]`: the alphabet `string.ascii_uppercase + string.digits`. */
  predicate IsUpperAlnum(c: char) {
    'A' <= c <= 'Z' || '0' <= c <= '9'
  }

  predicate AllAsciiDigits(s: string) {
    forall i :: 0 <= i < |s| ==> IsAsciiDigit(s[i])
  }

  predicate AllLowerHex(s: string) {
    forall i :: 0 <= i < |s| ==> IsLowerHexDigit(s[i])
  }

  predicate AllUpperAlnum(s: string) {
    forall i :: 0 <= i < |s| ==> IsUpperAlnum(s[i])
  }

  /** Python's slice `s[:n]` for `n >= 0`: at most the first `n` elements. */
  function Take<T>(s: seq<T>, n: nat): (r: seq<T>)
    ensures |r| == if n <= |s| then n else |s|
    ensures r <= s
  {
    if n <= |s| then s[..n] else s
  }
}

=== FILE: cfb.dfy ===
/**
 * Cipher feedback mode with a full 128-bit segment (what `modes.CFB(iv)`
 * selects), built on an abstract block encryption.  Only the block
 * encryption itself (AES) is left uninterpreted: it is a parameter.
 */
module Cfb {
  import opened Bytes

  const BlockSize: nat := 16

  /** One cipher block, also the shape of an initialization vector. */
  type Block = s: seq<byte> | |s| == 16 witness [0, 0, 0, 0, 0, 0, 0, 0, 0, 0, 0, 0, 0, 0, 0, 0]

  /** The forward block encryption under a key, AES in the source. */
  type BlockCipher = (seq<byte>, Block) -> Block

  /** AES accepts 128-, 192- and 256-bit keys in this mode; any other length raises. */
  predicate IsAesKeyLength(n: int) {
    n == 16 || n == 24 || n == 32
  }

  /** Bitwise exclusive or of the low `n` bits of `a` and `b`. */
  function XorBits(a: nat, b: nat, n: nat): nat {
    if n == 0 then 0 else 2 * XorBits(a / 2, b / 2, n - 1) + (a % 2 + b % 2) % 2
  }

  function Pow2(n: nat): (r: nat)
    ensures r >= 1
  {
    if n == 0 then 1 else 2 * Pow2(n - 1)
  }

  /** The combination has no bits above the `n` it combines. */
  lemma {:induction false} XorBitsBound(a: nat, b: nat, n: nat)
    ensures XorBits(a, b, n) < Pow2(n)
  {
    if n > 0 {
      XorBitsBound(a / 2, b / 2, n - 1);
    }
  }

  /** Halving a number written as `2 * q + bit`. */
  lemma Halve(x: nat, q: nat, bit: nat)
    requires bit < 2 && x == 2 * q + bit
    ensures x / 2 == q && x % 2 == bit
  {
  }

  /** One bit combined twice with the same bit. */
  lemma BitTwice(x: nat, y: nat)
    requires x < 2 && y < 2
    ensures ((x + y) % 2 + y) % 2 == x
  {
  }

  /** Combining twice with the same bits restores the original value. */
  lemma {:induction false} XorBitsTwice(a: nat, k: nat, n: nat)
    requires a < Pow2(n)
    ensures XorBits(XorBits(a, k, n), k, n) == a
  {
    if n > 0 {
      var bit := (a % 2 + k % 2) % 2;
      var r' := XorBits(a / 2, k / 2, n - 1);
      var r := XorBits(a, k, n);
      Halve(r, r', bit);
      XorBitsTwice(a / 2, k / 2, n - 1);
      BitTwice(a % 2, k % 2);
    }
  }

  /** `^` on two bytes. */
  function Xor(a: byte, b: byte): byte {
    XorBitsBound(a, b, 8);
    assert Pow2(8) == 256;
    XorBits(a, b, 8)
  }

  lemma XorTwice(a: byte, k: byte)
    ensures Xor(Xor(a, k), k) == a
  {
    assert Pow2(8) == 256;
    XorBitsTwice(a, k, 8);
  }

  /** The segment `d` combined with the leading bytes of the keystream block `ks`. */
  function XorPrefix(d: seq<byte>, ks: Block): (r: seq<byte>)
    requires |d| <= BlockSize
    ensures |r| == |d|
    ensures forall i :: 0 <= i < |d| ==> r[i] == Xor(d[i], ks[i])
  {
    seq(|d|, i requires 0 <= i < |d| => Xor(d[i], ks[i]))
  }

  lemma XorPrefixTwice(d: seq<byte>, ks: Block)
    requires |d| <= BlockSize
    ensures XorPrefix(XorPrefix(d, ks), ks) == d
  {
    forall i | 0 <= i < |d|
      ensures XorPrefix(XorPrefix(d, ks), ks)[i] == d[i]
    {
      XorTwice(d[i], ks[i]);
    }
  }

  /**
   * Encryption: every segment is the plaintext XOR the encryption of the
   * previous ciphertext block (the IV for the first); a short last segment
   * uses only as much keystream as it needs.
   */
  function Encrypt(aes: BlockCipher, key: seq<byte>, iv: Block, p: seq<byte>): (c: seq<byte>)
    ensures |c| == |p|
    decreases |p|
  {
    var ks := aes(key, iv);
    if |p| <= BlockSize then XorPrefix(p, ks)
    else
      var c0: Block := XorPrefix(p[..BlockSize], ks);
      c0 + Encrypt(aes, key, c0, p[BlockSize..])
  }

  /** Decryption feeds back the received ciphertext blocks, so it needs only the forward block encryption. */
  function Decrypt(aes: BlockCipher, key: seq<byte>, iv: Block, c: seq<byte>): (p: seq<byte>)
    ensures |p| == |c|
    decreases |c|
  {
    var ks := aes(key, iv);
    if |c| <= BlockSize then XorPrefix(c, ks)
    else
      var c0: Block := c[..BlockSize];
      XorPrefix(c0, ks) + Decrypt(aes, key, c0, c[BlockSize..])
  }

  lemma DecryptStep(aes: BlockCipher, key: seq<byte>, iv: Block, c0: Block, rest: seq<byte>)
    requires |rest| > 0
    ensures Decrypt(aes, key, iv, c0 + rest) == XorPrefix(c0, aes(key, iv)) + Decrypt(aes, key, c0, rest)
  {
    var c := c0 + rest;
    assert c[..BlockSize] == c0 && c[BlockSize..] == rest;
  }

  /** Decrypting with the same key and IV inverts encryption, whatever the block encryption is. */
  lemma {:induction false} DecryptEncrypt(aes: BlockCipher, key: seq<byte>, iv: Block, p: seq<byte>)
    ensures Decrypt(aes, key, iv, Encrypt(aes, key, iv, p)) == p
    decreases |p|
  {
    var ks := aes(key, iv);
    if |p| <= BlockSize {
      XorPrefixTwice(p, ks);
    } else {
      var head, tail := p[..BlockSize], p[BlockSize..];
      var c0: Block := XorPrefix(head, ks);
      var ct := Encrypt(aes, key, c0, tail);
      assert Encrypt(aes, key, iv, p) == c0 + ct;
      DecryptStep(aes, key, iv, c0, ct);
      XorPrefixTwice(head, ks);
      DecryptEncrypt(aes, key, c0, tail);
      assert head + tail == p;
    }
  }
}

=== FILE: data_entry.dfy ===
/**
 * The `test_data_entry` command: prompt until the input matches
 * `^\+\d{1,3}\d{10}$` under `re.match`, then create an entry and report the
 * outcome.
 */
module DataEntry {
  import opened Bytes
  import opened Results
  import opened Primitives
  import opened Models

  /** Where `$` can match: at the end, or just before a final newline. */
  predicate EndAnchor(s: string, p: nat) {
    p == |s| || (p == |s| - 1 && s[p] == '\n')
  }

  /** The pattern with `\d{1,3}` taking exactly `k` digits. */
  predicate MatchesWith(s: string, k: nat) {
    && 1 <= k <= 3
    && |s| >= 11 + k
    && s[0] == '+'
    && AllAsciiDigits(s[1..1 + k])
    && AllAsciiDigits(s[1 + k..11 + k])
    && EndAnchor(s, 11 + k)
  }

  /** `re.match(r'^\+\d{1,3}\d{10}$', s)` succeeds, reading `\d` as ASCII digits. */
  predicate MatchesPattern(s: string) {
    exists k: nat | 1 <= k <= 3 :: MatchesWith(s, k)
  }

  /** The line without one trailing newline, if it has one. */
  function Chomp(s: string): (r: string)
    ensures r <= s && |s| - 1 <= |r|
  {
    if |s| > 0 && s[|s| - 1] == '\n' then s[..|s| - 1] else s
  }

  /** A plus sign followed by 11 to 13 digits, allowing one trailing newline. */
  predicate IsPhoneNumber(s: string) {
    var body := Chomp(s);
    && 12 <= |body| <= 14
    && body[0] == '+'
    && AllAsciiDigits(body[1..])
  }

  /** The pattern accepts exactly '+' and 11 to 13 digits (plus the one newline `$` tolerates). */
  lemma PatternIsPhoneNumber(s: string)
    ensures MatchesPattern(s) <==> IsPhoneNumber(s)
  {
    if MatchesPattern(s) {
      var k: nat :| 1 <= k <= 3 && MatchesWith(s, k);
      var lead := s[1..1 + k];
      var tail := s[1 + k..11 + k];
      assert s[10 + k] == tail[9];
      var body := Chomp(s);
      assert |body| == 11 + k;
      var digits := body[1..];
      forall i | 0 <= i < |digits|
        ensures IsAsciiDigit(digits[i])
      {
        if i < k {
          assert digits[i] == lead[i];
        } else {
          assert digits[i] == tail[i - k];
        }
      }
    }
    if IsPhoneNumber(s) {
      var body := Chomp(s);
      var digits := body[1..];
      var k: nat := |body| - 11;
      var lead := s[1..1 + k];
      var tail := s[1 + k..11 + k];
      forall i | 0 <= i < |lead| ensures IsAsciiDigit(lead[i]) {
        assert lead[i] == digits[i];
      }
      forall i | 0 <= i < |tail| ensures IsAsciiDigit(tail[i]) {
        assert tail[i] == digits[k + i];
      }
      assert MatchesWith(s, k);
    }
  }

  /** A line without a leading '+' is never accepted. */
  lemma RejectsWithoutPlus(s: string)
    requires |s| == 0 || s[0] != '+'
    ensures !MatchesPattern(s)
  {
  }

  /** A plus sign followed by fewer than 11 or more than 13 digits is rejected. */
  lemma RejectsWrongDigitCount(s: string)
    requires |s| > 0 && s[0] == '+' && AllAsciiDigits(s[1..])
    requires |s| - 1 < 11 || |s| - 1 > 13
    ensures !MatchesPattern(s)
  {
    PatternIsPhoneNumber(s);
    assert Chomp(s) == s;
  }

  /** The validator as a scan: a '+', then only digits up to an optional final newline, 11 to 13 of them. */
  method Validate(s: string) returns (ok: bool)
    ensures ok <==> MatchesPattern(s)
  {
    PatternIsPhoneNumber(s);
    var end := |s|;
    if end > 0 && s[end - 1] == '\n' {
      end := end - 1;
    }
    if end < 12 || end > 14 || s[0] != '+' {
      return false;
    }
    var i := 1;
    while i < end
      invariant 1 <= i <= end
      invariant forall j :: 1 <= j < i ==> IsAsciiDigit(s[j])
    {
      if !IsAsciiDigit(s[i]) {
        assert Chomp(s)[1..][i - 1] == s[i];
        return false;
      }
      i := i + 1;
    }
    assert forall j :: 0 <= j < end - 1 ==> Chomp(s)[1..][j] == s[j + 1];
    return true;
  }

  /** How the command ends. */
  datatype Outcome =
    | InputExhausted                  // `input()` raised `EOFError`, which is not caught
    | Created(creation: Creation)     // the success message and the entry's fields
    | ReportedFailure(error: CreateError)  // "Failed to create entry: ..."

  /** The position of the first accepted line, or `|lines|` when none is. */
  method FirstAccepted(lines: seq<string>) returns (i: nat)
    ensures i <= |lines|
    ensures forall j :: 0 <= j < i ==> !MatchesPattern(lines[j])
    ensures i < |lines| ==> MatchesPattern(lines[i])
  {
    i := 0;
    while i < |lines|
      invariant i <= |lines|
      invariant forall j :: 0 <= j < i ==> !MatchesPattern(lines[j])
    {
      var ok := Validate(lines[i]);
      if ok {
        return;
      }
      i := i + 1;
    }
  }

  /**
   * `handle`: `lines` are the successive answers to the prompt.  Each
   * rejected line prints one format error; the first accepted one is passed
   * to `create_entry`, whose exception is reported rather than raised.
   */
  method Handle(prims: Primitives, stores: Stores, lines: seq<string>, stamp: string, draws: Draws,
                now: Instant, faults: Faults)
    returns (outcome: Outcome, formatErrors: nat)
    requires ValidDraws(draws)
    ensures formatErrors <= |lines|
    ensures forall j :: 0 <= j < formatErrors ==> !MatchesPattern(lines[j])
    ensures outcome.InputExhausted? <==> formatErrors == |lines|
    ensures !outcome.InputExhausted? ==> MatchesPattern(lines[formatErrors])
    ensures outcome.Created? ==>
      && !faults.lookup
      && outcome.creation == CreateEntry(prims, stores, lines[formatErrors], stamp, draws, now, faults).value
      && outcome.creation.entry.mobileNumberHash == HashMobileNumber(prims, lines[formatErrors])
    ensures outcome.ReportedFailure? ==> faults.lookup
  {
    formatErrors := FirstAccepted(lines);
    if formatErrors == |lines| {
      return InputExhausted, formatErrors;
    }
    match CreateEntry(prims, stores, lines[formatErrors], stamp, draws, now, faults)
    case Ok(c) => outcome := Created(c);
    case Err(e) => outcome := ReportedFailure(e);
  }
}

=== FILE: hex.dfy ===
/**
 * Python's `bytes.hex()` and `bytes.fromhex()`: how a per-entry encryption key
 * is written into the vault (models.py) and read back (retrieve_entries.py).
 */
module Hex {
  import opened Bytes
  import opened Results

  /** `bytes.fromhex` raises `ValueError` on anything but pairs of hex digits and whitespace. */
  datatype HexError = NonHexadecimal

  /** The lowercase digit for a value below 16. */
  function HexDigit(v: int): (c: char)
    requires 0 <= v < 16
    ensures IsLowerHexDigit(c)
  {
    if v < 10 then ('0' as int + v) as char else ('a' as int + v - 10) as char
  }

  /** The value of a hex digit of either case, as `bytes.fromhex` reads it. */
  function DigitValue(c: char): (r: Option<int>)
    ensures r.Some? ==> 0 <= r.value < 16
    ensures r.Some? <==> IsLowerHexDigit(c) || 'A' <= c <= 'F'
  {
    if '0' <= c <= '9' then Some(c as int - '0' as int)
    else if 'a' <= c <= 'f' then Some(c as int - 'a' as int + 10)
    else if 'A' <= c <= 'F' then Some(c as int - 'A' as int + 10)
    else None
  }

  lemma DigitValueOfHexDigit(v: int)
    requires 0 <= v < 16
    ensures DigitValue(HexDigit(v)) == Some(v)
  {
  }

  /** `bytes.hex()`: two lowercase hex digits per byte, high nibble first. */
  function ToHex(b: seq<byte>): (s: string)
    ensures |s| == 2 * |b|
    ensures AllLowerHex(s)
  {
    if |b| == 0 then [] else [HexDigit(b[0] / 16), HexDigit(b[0] % 16)] + ToHex(b[1..])
  }

  /** The characters CPython's `Py_ISSPACE` accepts; `fromhex` skips them between byte pairs. */
  predicate IsAsciiSpace(c: char) {
    c == ' ' || c == '\t' || c == '\n' || c == '\r' || c == '\U{0B}' || c == '\U{0C}'
  }

  /**
   * `bytes.fromhex(s)`: whitespace may stand between byte pairs, never inside
   * one; an odd trailing digit or any other character raises.
   */
  function FromHex(s: string): (r: Result<seq<byte>, HexError>)
    ensures r.Ok? ==> 2 * |r.value| <= |s|
    ensures r.Ok? ==> forall i :: 0 <= i < |s| && !IsAsciiSpace(s[i]) ==> DigitValue(s[i]).Some?
    ensures (forall i :: 0 <= i < |s| ==> IsAsciiSpace(s[i])) ==> r == Ok([])
    decreases |s|
  {
    if |s| == 0 then Ok([])
    else if IsAsciiSpace(s[0]) then FromHex(s[1..])
    else if |s| < 2 then Err(NonHexadecimal)
    else
      match (DigitValue(s[0]), DigitValue(s[1]))
      case (Some(hi), Some(lo)) =>
        (match FromHex(s[2..])
         case Ok(rest) => Ok([hi * 16 + lo] + rest)
         case Err(e) => Err(e))
      case _ => Err(NonHexadecimal)
  }

  /** One pair of digits followed by a string `fromhex` accepts. */
  lemma FromHexPair(s: string, hi: int, lo: int, rest: seq<byte>)
    requires |s| >= 2 && !IsAsciiSpace(s[0])
    requires DigitValue(s[0]) == Some(hi) && DigitValue(s[1]) == Some(lo)
    requires FromHex(s[2..]) == Ok(rest)
    ensures FromHex(s) == Ok([hi * 16 + lo] + rest)
  {
  }

  lemma ConsTail(b: seq<byte>)
    requires |b| > 0
    ensures [b[0]] + b[1..] == b
  {
  }

  /** The key written with `k.hex()` is read back unchanged by `bytes.fromhex`. */
  lemma {:induction false} FromHexToHex(b: seq<byte>)
    ensures FromHex(ToHex(b)) == Ok(b)
    decreases |b|
  {
    if |b| > 0 {
      var s := ToHex(b);
      var hi, lo := b[0] / 16, b[0] % 16;
      DigitValueOfHexDigit(hi);
      DigitValueOfHexDigit(lo);
      assert s == [HexDigit(hi), HexDigit(lo)] + ToHex(b[1..]);
      assert s[2..] == ToHex(b[1..]);
      FromHexToHex(b[1..]);
      FromHexPair(s, hi, lo, b[1..]);
      ConsTail(b);
    }
  }

  /** Distinct byte strings have distinct hex renderings. */
  lemma ToHexInjective(a: seq<byte>, b: seq<byte>)
    ensures ToHex(a) == ToHex(b) ==> a == b
  {
    FromHexToHex(a);
    FromHexToHex(b);
  }
}

=== FILE: lifecycle.dfy ===
/**
 * The life of one mobile number across the app: `create_entry` stores the
 * encrypted number and its key, and the `retrieve_entries` command reads
 * them back.
 */
module Lifecycle {
  import opened Results
  import opened Primitives
  import opened Models
  import opened RetrieveEntries

  /**
   * After a `create_entry` whose threads both succeed, looking the new
   * entry's key up (not yet cached) yields exactly the key that encrypted it,
   * and the report `retrieve_entries` prints for the entry shows the number
   * that was submitted, with the entry's other fields.
   */
  lemma CreatedEntryReadsBack(prims: Primitives, s: Stores, number: string, stamp: string, draws: Draws,
                              now: Instant, cache: KeyCache)
    requires ValidDraws(draws)
    requires BuildEntry(prims, number, stamp, draws, now).id !in cache
    ensures var c := CreateEntry(prims, s, number, stamp, draws, now, NoFaults).value;
      var lookup := GetEncryptionKey(cache, c.stores.vault, {}, c.entry.id);
      && c.entry in c.stores.entries
      && lookup.key == Ok(draws.key)
      && ReportFor(prims, c.entry, lookup.key)
         == Decrypted(c.entry.id, number, ServicePrefix, now, now + EntryLifetime, NotVerified)
  {
    var c := CreateEntry(prims, s, number, stamp, draws, now, NoFaults).value;
    var e := c.entry;
    assert c.stores.vault[KeyName(e.id)] == Secret(Hex.ToHex(draws.key), e.expiryAt);
    Hex.FromHexToHex(draws.key);
    RetrieveEntries.DecryptEncrypt(prims, number, draws.key, draws.iv);
  }
}

=== FILE: middleware.dfy ===
/** `APIKeyMiddleware.process_request` (middleware.py): the `X-API-KEY` gate in front of every view. */
module Middleware {
  import opened Results

  /** The JSON 401 response the gate answers with. */
  datatype Rejection = Rejection(status: int, error: string)

  const Missing: Rejection := Rejection(401, "API key is missing")
  const Unauthorized: Rejection := Rejection(401, "Unauthorized")

  /**
   * `process_request`: `header` is the `X-API-KEY` header, `primary` and
   * `secondary` the `PRIMARY_API_KEY` and `SECONDARY_API_KEY` environment
   * variables (`None` when unset).  `None` lets the request through.
   */
  function ProcessRequest(header: Option<string>, primary: Option<string>, secondary: Option<string>)
    : (r: Option<Rejection>)
    ensures header.None? || header == Some("") ==> r == Some(Missing)
    ensures r.None? <==> header.Some? && header.value != "" && (header == primary || header == secondary)
    ensures r.Some? && header.Some? && header.value != "" ==> r == Some(Unauthorized)
  {
    if header.None? || header.value == "" then Some(Missing)
    else if header !in [primary, secondary] then Some(Unauthorized)
    else None
  }

  /** With neither environment variable set, no request gets through. */
  lemma UnsetKeysRejectAll(header: Option<string>)
    ensures ProcessRequest(header, None, None).Some?
  {
  }

  /** A request carrying either configured key gets through. */
  lemma ConfiguredKeysPass(key: string, other: Option<string>)
    requires key != ""
    ensures ProcessRequest(Some(key), Some(key), other).None?
    ensures ProcessRequest(Some(key), other, Some(key)).None?
  {
  }
}

=== FILE: models.dfy ===
/**
 * `MobileNumber` (models.py): building a registration entry, its envelope
 * encryption, the lookup hash, dedup of an earlier entry and the background
 * writes to the vault and the entry collection.  The two collections are taken
 * after the background threads of a request have finished.
 */
module Models {
  import opened Bytes
  import opened Results
  import Hex
  import Utf8
  import Base64
  import Cfb
  import opened Primitives

  /** A UTC instant, in microseconds since the epoch (the resolution of `datetime`). */
  type Instant = int

  const MicrosPerSecond: int := 1000000

  /** `timedelta(seconds=600)`: how long an entry is meant to live. */
  const EntryLifetime: int := 600 * MicrosPerSecond

  const ServicePrefix: string := "UR"
  const NotVerified: string := "Not verified"
  const KeyNamePrefix: string := "encryption-key-"

  /** `string.ascii_uppercase + string.digits`, the population of the random id suffix. */
  const IdAlphabet: string := "ABCDEFGHIJKLMNOPQRSTUVWXYZ0123456789"

  /** One document of the `user_auth_database` collection. */
  datatype Entry = Entry(
    id: string,
    mobileNumber: string,
    mobileNumberHash: string,
    servicePrefix: string,
    createdAt: Instant,
    expiryAt: Instant,
    isVerified: string)

  /** A vault secret: its value and the expiry it was written with. */
  datatype Secret = Secret(value: string, expiresOn: Instant)

  type Vault = map<string, Secret>

  /** The entry collection in natural order, and the key vault. */
  datatype Stores = Stores(entries: seq<Entry>, vault: Vault)

  /**
   * Which remote calls of one request raise: the vault write, the entry save,
   * the vault delete and the entry delete of dedup, and the synchronous dedup
   * lookup.
   */
  datatype Faults = Faults(
    vaultWrite: bool,
    storeWrite: bool,
    vaultDelete: bool,
    storeDelete: bool,
    lookup: bool)

  const NoFaults: Faults := Faults(false, false, false, false, false)

  /**
   * The random values one `create_entry` draws: `os.urandom(32)` for the key,
   * `os.urandom(16)` for the IV, `random.choices(..., k=6)` as indices into
   * `IdAlphabet`.
   */
  datatype Draws = Draws(key: seq<byte>, iv: Cfb.Block, picks: seq<int>)

  /** What the random sources guarantee about their output. */
  predicate ValidDraws(d: Draws) {
    && |d.key| == 32
    && |d.picks| == 6
    && forall i :: 0 <= i < |d.picks| ==> 0 <= d.picks[i] < |IdAlphabet|
  }

  /** The name of the vault secret holding the key of entry `id`. */
  function KeyName(id: string): (name: string)
    ensures |name| == |KeyNamePrefix| + |id| && name[|KeyNamePrefix|..] == id
  {
    KeyNamePrefix + id
  }

  lemma KeyNameInjective(a: string, b: string)
    ensures KeyName(a) == KeyName(b) <==> a == b
  {
    if KeyName(a) == KeyName(b) {
      assert a == KeyName(a)[|KeyNamePrefix|..];
    }
  }

  // ---------------------------------------------------------------- the id

  function SuffixChars(picks: seq<int>): (s: string)
    requires forall i :: 0 <= i < |picks| ==> 0 <= picks[i] < |IdAlphabet|
    ensures |s| == |picks|
    ensures forall i :: 0 <= i < |picks| ==> s[i] == IdAlphabet[picks[i]]
  {
    seq(|picks|, i requires 0 <= i < |picks| => IdAlphabet[picks[i]])
  }

  /**
   * `generate_custom_id`: `stamp` is the `%Y%m%d%H%M%S` rendering of the clock
   * read at models.py:56, `text` the string whose MD5 is taken.
   */
  function GenerateCustomId(prims: Primitives, text: string, stamp: string, picks: seq<int>): (id: string)
    requires forall i :: 0 <= i < |picks| ==> 0 <= picks[i] < |IdAlphabet|
    ensures |id| == |stamp| + 15 + |picks|
    ensures id[..3] == "UR-" && id[3..3 + |stamp|] == stamp && id[3 + |stamp|] == '-'
    ensures id[4 + |stamp|..14 + |stamp|] == Hex.ToHex(prims.md5(Utf8.Encode(text)))[..10]
    ensures id[14 + |stamp|] == '-' && id[15 + |stamp|..] == SuffixChars(picks)
  {
    "UR-" + stamp + "-" + Take(Hex.ToHex(prims.md5(Utf8.Encode(text))), 10) + "-" + SuffixChars(picks)
  }

  /** The id format `UR-\d{14}-[0-9a-f]{10}-[A-Z0-9]{6}`. */
  predicate IsCustomId(s: string) {
    && |s| == 35
    && s[..3] == "UR-"
    && AllAsciiDigits(s[3..17])
    && s[17] == '-'
    && AllLowerHex(s[18..28])
    && s[28] == '-'
    && AllUpperAlnum(s[29..])
  }

  lemma IdAlphabetIsUpperAlnum(i: int)
    requires 0 <= i < |IdAlphabet|
    ensures IsUpperAlnum(IdAlphabet[i])
  {
  }

  /**
   * With a 14-digit timestamp and six draws the id has the documented format;
   * its fields are the timestamp, the first ten hex digits of the MD5 of
   * `text`, and the drawn characters.
   */
  lemma CustomIdFormat(prims: Primitives, text: string, stamp: string, picks: seq<int>)
    requires |stamp| == 14 && AllAsciiDigits(stamp)
    requires |picks| == 6 && forall i :: 0 <= i < |picks| ==> 0 <= picks[i] < |IdAlphabet|
    ensures IsCustomId(GenerateCustomId(prims, text, stamp, picks))
    ensures GenerateCustomId(prims, text, stamp, picks)[3..17] == stamp
    ensures GenerateCustomId(prims, text, stamp, picks)[18..28] == Hex.ToHex(prims.md5(Utf8.Encode(text)))[..10]
    ensures forall i :: 0 <= i < 6 ==> GenerateCustomId(prims, text, stamp, picks)[29 + i] == IdAlphabet[picks[i]]
  {
    var hex := Hex.ToHex(prims.md5(Utf8.Encode(text)));
    var suffix := SuffixChars(picks);
    var id := GenerateCustomId(prims, text, stamp, picks);
    assert id == "UR-" + stamp + "-" + hex[..10] + "-" + suffix;
    assert id[3..17] == stamp;
    assert id[18..28] == hex[..10];
    assert id[29..] == suffix;
    forall i | 0 <= i < 6
      ensures IsUpperAlnum(suffix[i])
    {
      IdAlphabetIsUpperAlnum(picks[i]);
    }
  }

  // ---------------------------------------------------- encryption and hash

  /** Errors raised while setting up AES-CFB. */
  datatype CipherError = InvalidKeySize

  /**
   * `encrypt_mobile_number`: AES-CFB of the UTF-8 bytes under `key` and the
   * drawn `iv`, framed as base64 of `iv || ciphertext`.  AES rejects key sizes
   * other than 128, 192 and 256 bits.
   */
  function EncryptMobileNumber(prims: Primitives, number: string, key: seq<byte>, iv: Cfb.Block): (r: Result<string, CipherError>)
    ensures r.Ok? <==> Cfb.IsAesKeyLength(|key|)
  {
    if !Cfb.IsAesKeyLength(|key|) then Err(InvalidKeySize)
    else Ok(Base64.Encode(iv + Cfb.Encrypt(prims.aes, key, iv, Utf8.Encode(number))))
  }

  /**
   * What `encrypt_mobile_number` produces: base64 text that decodes to the
   * 16-byte IV followed by a ciphertext that CFB-decrypts, under the same key
   * and IV, to the number's UTF-8 bytes.
   */
  lemma EncryptedFrame(prims: Primitives, number: string, key: seq<byte>, iv: Cfb.Block)
    requires Cfb.IsAesKeyLength(|key|)
    ensures var framed := Base64.Decode(EncryptMobileNumber(prims, number, key, iv).value);
      && framed.Ok?
      && |framed.value| == 16 + |Utf8.Encode(number)|
      && framed.value[..16] == iv
      && Cfb.Decrypt(prims.aes, key, iv, framed.value[16..]) == Utf8.Encode(number)
  {
    var plain := Utf8.Encode(number);
    var framed := iv + Cfb.Encrypt(prims.aes, key, iv, plain);
    Base64.DecodeEncode(framed);
    assert framed[16..] == Cfb.Encrypt(prims.aes, key, iv, plain);
    Cfb.DecryptEncrypt(prims.aes, key, iv, plain);
  }

  /** `hash_mobile_number`: the SHA-256 hex digest of the number's UTF-8 bytes. */
  function HashMobileNumber(prims: Primitives, number: string): (h: string)
    ensures |h| == 64 && AllLowerHex(h)
  {
    Hex.ToHex(prims.sha256(Utf8.Encode(number)))
  }

  /** Two numbers share a lookup hash exactly when SHA-256 collides on their encodings. */
  lemma HashCollisionIsDigestCollision(prims: Primitives, a: string, b: string)
    ensures HashMobileNumber(prims, a) == HashMobileNumber(prims, b)
      <==> prims.sha256(Utf8.Encode(a)) == prims.sha256(Utf8.Encode(b))
  {
    Hex.ToHexInjective(prims.sha256(Utf8.Encode(a)), prims.sha256(Utf8.Encode(b)));
  }

  /**
   * If SHA-256 does not collide on the encodings of `a` and `b`, the two
   * numbers share a lookup hash only when they are the same number.
   */
  lemma HashInjective(prims: Primitives, a: string, b: string)
    requires prims.sha256(Utf8.Encode(a)) == prims.sha256(Utf8.Encode(b)) ==> Utf8.Encode(a) == Utf8.Encode(b)
    ensures HashMobileNumber(prims, a) == HashMobileNumber(prims, b) ==> a == b
  {
    HashCollisionIsDigestCollision(prims, a, b);
    Utf8.EncodeInjective(a, b);
  }

  /**
   * `find_one({"mobile_number_hash": h})` on the profile collection, given as
   * the `mobile_number_hash` field of each profile document in natural order:
   * the position of the first document with hash `h`.
   */
  function FindProfile(profiles: seq<string>, h: string): (r: Option<nat>)
    ensures r.Some? ==> r.value < |profiles| && profiles[r.value] == h
    ensures r.None? ==> h !in profiles
  {
    if |profiles| == 0 then None
    else if profiles[0] == h then Some(0)
    else match FindProfile(profiles[1..], h)
      case None => None
      case Some(i) => Some(i + 1)
  }

  /** `check_user_profile_exists`: the profile collection holds a document with the number's hash. */
  function CheckUserProfileExists(prims: Primitives, profiles: seq<string>, number: string): (r: bool)
    ensures r <==> HashMobileNumber(prims, number) in profiles
  {
    FindProfile(profiles, HashMobileNumber(prims, number)).Some?
  }

  // ------------------------------------------------------ the entry store

  predicate UniqueIds(entries: seq<Entry>) {
    forall i, j :: 0 <= i < j < |entries| ==> entries[i].id != entries[j].id
  }

  predicate HasId(entries: seq<Entry>, id: string) {
    exists i :: 0 <= i < |entries| && entries[i].id == id
  }

  /** `.objects(mobile_number_hash=h).first()`: the position of the first entry with hash `h`. */
  function FirstWithHash(entries: seq<Entry>, h: string): (r: Option<nat>)
    ensures r.Some? ==> r.value < |entries| && entries[r.value].mobileNumberHash == h
    ensures r.Some? ==> forall j :: 0 <= j < r.value ==> entries[j].mobileNumberHash != h
    ensures r.None? ==> forall j :: 0 <= j < |entries| ==> entries[j].mobileNumberHash != h
  {
    if |entries| == 0 then None
    else if entries[0].mobileNumberHash == h then Some(0)
    else match FirstWithHash(entries[1..], h)
      case None => None
      case Some(i) => Some(i + 1)
  }

  /** `document.delete()`: removes the documents with that primary key. */
  function RemoveById(entries: seq<Entry>, id: string): (r: seq<Entry>)
    ensures |r| <= |entries|
  {
    if |entries| == 0 then []
    else if entries[0].id == id then RemoveById(entries[1..], id)
    else [entries[0]] + RemoveById(entries[1..], id)
  }

  /** `RemoveById` keeps exactly the entries with another id. */
  lemma {:induction false} RemoveByIdMembers(entries: seq<Entry>, id: string, e: Entry)
    ensures e in RemoveById(entries, id) <==> e in entries && e.id != id
    decreases |entries|
  {
    if |entries| > 0 {
      RemoveByIdMembers(entries[1..], id, e);
      assert e in entries <==> e == entries[0] || e in entries[1..];
    }
  }

  /** Past a first entry with another id, the id is present exactly when it is in the rest. */
  lemma HasIdTail(entries: seq<Entry>, id: string)
    requires |entries| > 0 && entries[0].id != id
    ensures HasId(entries, id) <==> HasId(entries[1..], id)
  {
    if HasId(entries, id) {
      var i :| 0 <= i < |entries| && entries[i].id == id;
      assert entries[1..][i - 1].id == id;
    }
    if HasId(entries[1..], id) {
      var i :| 0 <= i < |entries[1..]| && entries[1..][i].id == id;
      assert entries[i + 1].id == id;
    }
  }

  /**
   * `document.save()` with an explicit primary key: replaces the document with
   * that key if there is one, otherwise inserts at the end.
   */
  function Save(entries: seq<Entry>, e: Entry): (r: seq<Entry>)
    ensures e in r
    ensures HasId(entries, e.id) ==> |r| == |entries|
    ensures !HasId(entries, e.id) ==> r == entries + [e]
    ensures forall x :: x in r ==> x == e || x in entries
    ensures forall x :: x in entries && x.id != e.id ==> x in r
  {
    if |entries| == 0 then [e]
    else if entries[0].id == e.id then [e] + entries[1..]
    else
      HasIdTail(entries, e.id);
      [entries[0]] + Save(entries[1..], e)
  }

  /** With unique ids, removing by the id at position `i` removes exactly that entry. */
  lemma {:induction false} RemoveByIdAt(entries: seq<Entry>, i: nat)
    requires UniqueIds(entries) && i < |entries|
    ensures RemoveById(entries, entries[i].id) == entries[..i] + entries[i + 1..]
    decreases |entries|
  {
    var id := entries[i].id;
    var tail := entries[1..];
    UniqueTail(entries);
    if i == 0 {
      forall j | 0 <= j < |tail|
        ensures tail[j].id != id
      {
        assert tail[j] == entries[j + 1];
      }
      RemoveByIdAbsent(tail, id);
    } else {
      assert tail[i - 1] == entries[i];
      RemoveByIdAt(tail, i - 1);
      RemoveKeptHead(entries, i);
    }
  }

  /** The list arithmetic of `RemoveByIdAt` when the removed entry is not the first. */
  lemma RemoveKeptHead(entries: seq<Entry>, i: nat)
    requires 0 < i < |entries|
    ensures [entries[0]] + (entries[1..][..i - 1] + entries[1..][i..]) == entries[..i] + entries[i + 1..]
  {
    assert entries[..i] == [entries[0]] + entries[1..][..i - 1];
    assert entries[i + 1..] == entries[1..][i..];
  }

  lemma {:induction false} RemoveByIdAbsent(entries: seq<Entry>, id: string)
    requires forall j :: 0 <= j < |entries| ==> entries[j].id != id
    ensures RemoveById(entries, id) == entries
    decreases |entries|
  {
    if |entries| > 0 {
      RemoveByIdAbsent(entries[1..], id);
    }
  }

  lemma {:induction false} RemoveByIdKeepsUnique(entries: seq<Entry>, id: string)
    requires UniqueIds(entries)
    ensures UniqueIds(RemoveById(entries, id))
    decreases |entries|
  {
    if |entries| > 0 {
      RemoveByIdKeepsUnique(entries[1..], id);
      var rest := RemoveById(entries[1..], id);
      forall e | e in rest
        ensures e.id != entries[0].id
      {
        RemoveByIdMembers(entries[1..], id, e);
        var j :| 0 <= j < |entries[1..]| && entries[1..][j] == e;
        assert entries[j + 1] == e;
      }
    }
  }

  /** Dropping the first entry keeps ids unique. */
  lemma UniqueTail(entries: seq<Entry>)
    requires |entries| > 0 && UniqueIds(entries)
    ensures UniqueIds(entries[1..])
  {
    var tail := entries[1..];
    forall a, b | 0 <= a < b < |tail|
      ensures tail[a].id != tail[b].id
    {
      assert tail[a] == entries[a + 1] && tail[b] == entries[b + 1];
    }
  }

  /** Prepending an entry whose id no later entry has keeps ids unique. */
  lemma UniqueCons(x: Entry, rest: seq<Entry>)
    requires UniqueIds(rest)
    requires forall y :: y in rest ==> y.id != x.id
    ensures UniqueIds([x] + rest)
  {
    var r := [x] + rest;
    forall i, j | 0 <= i < j < |r|
      ensures r[i].id != r[j].id
    {
      assert r[j] == rest[j - 1];
      if i > 0 {
        assert r[i] == rest[i - 1];
      }
    }
  }

  lemma {:induction false} SaveKeepsUnique(entries: seq<Entry>, e: Entry)
    requires UniqueIds(entries)
    ensures UniqueIds(Save(entries, e))
    decreases |entries|
  {
    if |entries| == 0 {
      return;
    }
    var tail := entries[1..];
    UniqueTail(entries);
    forall y | y in tail
      ensures y.id != entries[0].id
    {
      var k :| 0 <= k < |tail| && tail[k] == y;
      assert entries[k + 1] == y;
    }
    if entries[0].id == e.id {
      assert Save(entries, e) == [e] + tail;
      UniqueCons(e, tail);
    } else {
      var rest := Save(tail, e);
      SaveKeepsUnique(tail, e);
      assert Save(entries, e) == [entries[0]] + rest;
      UniqueCons(entries[0], rest);
    }
  }

  /** Saving one id and removing another give the same collection in either order. */
  lemma {:induction false} SaveRemoveCommute(entries: seq<Entry>, e: Entry, id: string)
    requires e.id != id
    ensures RemoveById(Save(entries, e), id) == Save(RemoveById(entries, id), e)
    decreases |entries|
  {
    if |entries| > 0 && entries[0].id != e.id {
      SaveRemoveCommute(entries[1..], e, id);
    } else if |entries| > 0 {
      assert Save(entries, e) == [e] + entries[1..];
    }
  }

  // ----------------------------------------------------- background tasks

  /** How a background thread ended; failures are only logged by the source. */
  datatype TaskOutcome = Completed | FailedAtVault | FailedAtStore

  /**
   * The `async_delete` thread of `delete_existing_entry` for the entry found
   * by the synchronous lookup: the vault delete is issued first and raises
   * when the secret is absent or the vault fails, and then nothing else
   * happens; otherwise the entry is deleted unless that call fails.
   */
  function AsyncDelete(s: Stores, victim: Entry, faults: Faults): (r: (Stores, TaskOutcome))
    ensures r.1 == FailedAtVault ==> r.0 == s
    ensures r.1 != FailedAtVault ==> r.0.vault == s.vault - {KeyName(victim.id)}
    ensures r.1 == Completed ==> r.0.entries == RemoveById(s.entries, victim.id)
    ensures r.1 != Completed ==> r.0.entries == s.entries
    ensures r.1 == FailedAtVault <==> faults.vaultDelete || KeyName(victim.id) !in s.vault
  {
    var name := KeyName(victim.id);
    if faults.vaultDelete || name !in s.vault then (s, FailedAtVault)
    else
      var vault := s.vault - {name};
      if faults.storeDelete then (Stores(s.entries, vault), FailedAtStore)
      else (Stores(RemoveById(s.entries, victim.id), vault), Completed)
  }

  /**
   * The `store_data` thread of `create_entry`: the key goes to the vault as
   * hex under `encryption-key-<id>` with the entry's expiry, and only if that
   * succeeded is the entry saved.
   */
  function StoreData(s: Stores, entry: Entry, key: seq<byte>, faults: Faults): (r: (Stores, TaskOutcome))
    ensures r.1 == FailedAtVault <==> faults.vaultWrite
    ensures r.1 == FailedAtVault ==> r.0 == s
    ensures r.1 != FailedAtVault ==>
      r.0.vault == s.vault[KeyName(entry.id) := Secret(Hex.ToHex(key), entry.expiryAt)]
    ensures r.1 == Completed ==> r.0.entries == Save(s.entries, entry)
    ensures r.1 != Completed ==> r.0.entries == s.entries
  {
    if faults.vaultWrite then (s, FailedAtVault)
    else
      var vault := s.vault[KeyName(entry.id) := Secret(Hex.ToHex(key), entry.expiryAt)];
      if faults.storeWrite then (Stores(s.entries, vault), FailedAtStore)
      else (Stores(Save(s.entries, entry), vault), Completed)
  }

  /** Every stored entry has its key in the vault. */
  predicate Paired(s: Stores) {
    forall i :: 0 <= i < |s.entries| ==> KeyName(s.entries[i].id) in s.vault
  }

  /**
   * Because the key is written before the entry is saved, the store thread
   * never leaves an entry without a key, whichever of its calls fails.
   */
  lemma StoreDataKeepsPairing(s: Stores, entry: Entry, key: seq<byte>, faults: Faults)
    requires Paired(s)
    ensures Paired(StoreData(s, entry, key, faults).0)
  {
    var r := StoreData(s, entry, key, faults);
    if r.1 == Completed {
      forall i | 0 <= i < |r.0.entries|
        ensures KeyName(r.0.entries[i].id) in r.0.vault
      {
        var x := r.0.entries[i];
        assert x in Save(s.entries, entry);
        if x != entry {
          var j :| 0 <= j < |s.entries| && s.entries[j] == x;
        }
      }
    }
  }

  /**
   * Dedup keeps every remaining entry paired with its key unless the entry
   * delete fails after the key delete succeeded.
   */
  lemma AsyncDeleteKeepsPairing(s: Stores, victim: Entry, faults: Faults)
    requires Paired(s) && !faults.storeDelete
    ensures Paired(AsyncDelete(s, victim, faults).0)
  {
    var r := AsyncDelete(s, victim, faults);
    if r.1 == Completed {
      forall i | 0 <= i < |r.0.entries|
        ensures KeyName(r.0.entries[i].id) in r.0.vault
      {
        var x := r.0.entries[i];
        assert x in RemoveById(s.entries, victim.id);
        RemoveByIdMembers(s.entries, victim.id, x);
        var j :| 0 <= j < |s.entries| && s.entries[j] == x;
        KeyNameInjective(x.id, victim.id);
      }
    }
  }

  /** Deleting one secret and writing another give the same vault in either order. */
  lemma VaultOpsCommute(v: Vault, gone: string, written: string, secret: Secret)
    requires gone != written
    ensures (v - {gone})[written := secret] == v[written := secret] - {gone}
  {
  }

  /**
   * The dedup thread and the store thread touch different names and ids, so
   * the state after both is the same whichever finishes first.
   */
  lemma BackgroundTasksCommute(s: Stores, victim: Entry, entry: Entry, key: seq<byte>, faults: Faults)
    requires victim.id != entry.id
    ensures StoreData(AsyncDelete(s, victim, faults).0, entry, key, faults).0
         == AsyncDelete(StoreData(s, entry, key, faults).0, victim, faults).0
  {
    var gone, written := KeyName(victim.id), KeyName(entry.id);
    KeyNameInjective(victim.id, entry.id);
    var d := AsyncDelete(s, victim, faults);
    var w := StoreData(s, entry, key, faults);
    var dw := StoreData(d.0, entry, key, faults);
    var wd := AsyncDelete(w.0, victim, faults);
    if faults.vaultDelete || gone !in s.vault {
      assert d.0 == s;
      assert gone in w.0.vault <==> gone in s.vault;
      assert wd.0 == w.0;
    } else if faults.vaultWrite {
      assert dw.0 == d.0 && w.0 == s;
    } else {
      VaultOpsCommute(s.vault, gone, written, Secret(Hex.ToHex(key), entry.expiryAt));
      assert dw.0.vault == wd.0.vault;
      if !faults.storeDelete && !faults.storeWrite {
        SaveRemoveCommute(s.entries, entry, victim.id);
      }
      assert dw.0.entries == wd.0.entries;
    }
  }

  // -------------------------------------------------------- create_entry

  datatype CreateError = StoreUnavailable

  /** The entry `create_entry` builds and returns, and the state once its threads have finished. */
  datatype Creation = Creation(entry: Entry, stores: Stores, dedup: Option<TaskOutcome>, store: TaskOutcome)

  /** The document `create_entry` returns, before anything is written. */
  function BuildEntry(prims: Primitives, number: string, stamp: string, draws: Draws, now: Instant): (e: Entry)
    requires ValidDraws(draws)
    ensures EncryptMobileNumber(prims, number, draws.key, draws.iv) == Ok(e.mobileNumber)
    ensures e.id == GenerateCustomId(prims, e.mobileNumber, stamp, draws.picks)
    ensures e.mobileNumberHash == HashMobileNumber(prims, number)
    ensures e.servicePrefix == ServicePrefix && e.isVerified == NotVerified
    ensures e.createdAt == now && e.expiryAt == now + EntryLifetime
  {
    var encrypted := EncryptMobileNumber(prims, number, draws.key, draws.iv).value;
    Entry(
      GenerateCustomId(prims, encrypted, stamp, draws.picks),
      encrypted,
      HashMobileNumber(prims, number),
      ServicePrefix,
      now,
      now + EntryLifetime,
      NotVerified)
  }

  /** The entries a fault-free dedup thread leaves: all but the first one carrying hash `h`. */
  function Survivors(entries: seq<Entry>, h: string): (r: seq<Entry>)
    ensures |r| <= |entries|
  {
    match FirstWithHash(entries, h)
    case None => entries
    case Some(i) => RemoveById(entries, entries[i].id)
  }

  /** The vault a fault-free dedup thread leaves: the key of the first entry carrying hash `h` is gone. */
  function VaultSurvivors(s: Stores, h: string): (v: Vault)
    ensures v.Keys <= s.vault.Keys
  {
    match FirstWithHash(s.entries, h)
    case None => s.vault
    case Some(i) => s.vault - {KeyName(s.entries[i].id)}
  }

  /**
   * The two threads `create_entry` starts, run to completion: the dedup
   * thread when an entry with the same hash exists, then the store thread.
   */
  function RunThreads(s: Stores, entry: Entry, key: seq<byte>, faults: Faults): (c: Creation)
    ensures c.entry == entry
    ensures c.dedup.None? <==> FirstWithHash(s.entries, entry.mobileNumberHash).None?
    ensures c.store == FailedAtVault <==> faults.vaultWrite
    ensures !faults.vaultWrite ==>
      KeyName(entry.id) in c.stores.vault && c.stores.vault[KeyName(entry.id)] == Secret(Hex.ToHex(key), entry.expiryAt)
    ensures faults == NoFaults && Paired(s) ==>
      c.stores.entries == Save(Survivors(s.entries, entry.mobileNumberHash), entry)
    ensures faults == NoFaults && Paired(s) ==>
      c.stores.vault == VaultSurvivors(s, entry.mobileNumberHash)[KeyName(entry.id) := Secret(Hex.ToHex(key), entry.expiryAt)]
  {
    match FirstWithHash(s.entries, entry.mobileNumberHash)
    case None =>
      var (s2, stored) := StoreData(s, entry, key, faults);
      Creation(entry, s2, None, stored)
    case Some(i) =>
      var (s1, deleted) := AsyncDelete(s, s.entries[i], faults);
      var (s2, stored) := StoreData(s1, entry, key, faults);
      Creation(entry, s2, Some(deleted), stored)
  }

  /**
   * `create_entry`: the synchronous lookup of an existing entry (which raises
   * when the store is unreachable), then the new entry, then the dedup thread
   * and the store thread run to completion.
   */
  function CreateEntry(prims: Primitives, s: Stores, number: string, stamp: string, draws: Draws,
                       now: Instant, faults: Faults): (r: Result<Creation, CreateError>)
    requires ValidDraws(draws)
    ensures r.Err? <==> faults.lookup
    ensures r.Ok? ==> r.value.entry == BuildEntry(prims, number, stamp, draws, now)
    ensures r.Ok? ==> (r.value.dedup.None? <==> FirstWithHash(s.entries, HashMobileNumber(prims, number)).None?)
    ensures r.Ok? && !faults.vaultWrite ==>
      && KeyName(r.value.entry.id) in r.value.stores.vault
      && r.value.stores.vault[KeyName(r.value.entry.id)] == Secret(Hex.ToHex(draws.key), now + EntryLifetime)
    ensures r.Ok? && faults == NoFaults && Paired(s) ==>
      && r.value.stores.entries == Save(Survivors(s.entries, HashMobileNumber(prims, number)), r.value.entry)
      && r.value.stores.vault == VaultSurvivors(s, HashMobileNumber(prims, number))[KeyName(r.value.entry.id) :=
           Secret(Hex.ToHex(draws.key), now + EntryLifetime)]
  {
    if faults.lookup then Err(StoreUnavailable)
    else Ok(RunThreads(s, BuildEntry(prims, number, stamp, draws, now), draws.key, faults))
  }

  /** How many entries carry hash `h`. */
  function CountHash(entries: seq<Entry>, h: string): (n: nat)
    ensures n <= |entries|
    ensures n == 0 <==> forall j :: 0 <= j < |entries| ==> entries[j].mobileNumberHash != h
  {
    if |entries| == 0 then 0
    else (if entries[0].mobileNumberHash == h then 1 else 0) + CountHash(entries[1..], h)
  }

  lemma {:induction false} CountHashAppend(a: seq<Entry>, b: seq<Entry>, h: string)
    ensures CountHash(a + b, h) == CountHash(a, h) + CountHash(b, h)
    decreases |a|
  {
    if |a| == 0 {
      assert a + b == b;
    } else {
      assert (a + b)[0] == a[0];
      assert (a + b)[1..] == a[1..] + b;
      CountHashAppend(a[1..], b, h);
    }
  }

  /**
   * Removing the one entry that carries hash `h` leaves none that does, and
   * nothing left behind carries the id `id`.
   */
  lemma RemoveOnlyHolder(entries: seq<Entry>, i: nat, h: string, id: string)
    requires i < |entries| && entries[i].mobileNumberHash == h
    requires UniqueIds(entries) && CountHash(entries, h) <= 1 && !HasId(entries, id)
    ensures CountHash(RemoveById(entries, entries[i].id), h) == 0
    ensures !HasId(RemoveById(entries, entries[i].id), id)
    ensures UniqueIds(RemoveById(entries, entries[i].id))
  {
    var victim := entries[i];
    var rest := RemoveById(entries, victim.id);
    RemoveByIdAt(entries, i);
    RemoveByIdKeepsUnique(entries, victim.id);
    assert entries == entries[..i] + [victim] + entries[i + 1..];
    CountHashAppend(entries[..i] + [victim], entries[i + 1..], h);
    CountHashAppend(entries[..i], [victim], h);
    CountHashAppend(entries[..i], entries[i + 1..], h);
    forall j | 0 <= j < |rest|
      ensures rest[j].id != id
    {
      RemoveByIdMembers(entries, victim.id, rest[j]);
      var k :| 0 <= k < |entries| && entries[k] == rest[j];
    }
  }

  /**
   * Dedup exclusivity: when at most one entry carries the number's hash and
   * every entry has its key, a fault-free creation with a fresh id leaves
   * exactly one entry with that hash, the new one.
   */
  lemma CreateEntryLeavesOneLive(prims: Primitives, s: Stores, number: string, stamp: string,
                                 draws: Draws, now: Instant)
    requires ValidDraws(draws)
    requires UniqueIds(s.entries) && Paired(s)
    requires CountHash(s.entries, HashMobileNumber(prims, number)) <= 1
    requires !HasId(s.entries, BuildEntry(prims, number, stamp, draws, now).id)
    ensures CreateEntry(prims, s, number, stamp, draws, now, NoFaults).Ok?
    ensures var c := CreateEntry(prims, s, number, stamp, draws, now, NoFaults).value;
      && CountHash(c.stores.entries, HashMobileNumber(prims, number)) == 1
      && c.entry in c.stores.entries
      && UniqueIds(c.stores.entries)
  {
    var h := HashMobileNumber(prims, number);
    var entry := BuildEntry(prims, number, stamp, draws, now);
    assert CreateEntry(prims, s, number, stamp, draws, now, NoFaults).value == RunThreads(s, entry, draws.key, NoFaults);
    DedupThenSave(s.entries, entry, h);
  }

  /**
   * On the collection alone: removing the one holder of hash `h` and saving
   * a new entry with that hash and a fresh id leaves exactly one holder.
   */
  lemma DedupThenSave(entries: seq<Entry>, entry: Entry, h: string)
    requires entry.mobileNumberHash == h
    requires UniqueIds(entries) && CountHash(entries, h) <= 1 && !HasId(entries, entry.id)
    ensures var r := Save(Survivors(entries, h), entry);
      CountHash(r, h) == 1 && entry in r && UniqueIds(r)
  {
    var base := Survivors(entries, h);
    match FirstWithHash(entries, h) {
      case None =>
        assert base == entries;
        assert CountHash(base, h) == 0;
      case Some(i) =>
        RemoveOnlyHolder(entries, i, h, entry.id);
    }
    assert CountHash(base, h) == 0 && !HasId(base, entry.id) && UniqueIds(base);
    var r := Save(base, entry);
    assert r == base + [entry];
    CountHashAppend(base, [entry], h);
    assert CountHash([entry], h) == 1 by {
      assert [entry][1..] == [];
    }
    SaveKeepsUnique(base, entry);
  }

  // ------------------------------------------------------------------ TTL

  /**
   * Time-to-live eviction by an index on `expiry_at` with the given
   * `expireAfterSeconds`: a document goes once its `expiry_at` plus that
   * delay has passed.
   */
  function EvictExpired(entries: seq<Entry>, expireAfter: int, now: Instant): (r: seq<Entry>)
    ensures forall e :: e in r <==> e in entries && now < e.expiryAt + expireAfter * MicrosPerSecond
  {
    if |entries| == 0 then []
    else if now < entries[0].expiryAt + expireAfter * MicrosPerSecond then
      [entries[0]] + EvictExpired(entries[1..], expireAfter, now)
    else EvictExpired(entries[1..], expireAfter, now)
  }

  /** The index as declared: `expireAfterSeconds: 600` on `expiry_at`. */
  function EvictAsWritten(entries: seq<Entry>, now: Instant): seq<Entry> {
    EvictExpired(entries, 600, now)
  }

  /** The index as the 600-second lifetime asks for: eviction at `expiry_at` itself. */
  function Evict(entries: seq<Entry>, now: Instant): (r: seq<Entry>)
    ensures forall e :: e in r ==> now < e.expiryAt
  {
    EvictExpired(entries, 0, now)
  }

  /**
   * Under the declared index an entry built at `now` is still present 900
   * seconds later, 300 seconds past its `expiry_at`.
   */
  lemma AsWrittenTtlKeepsExpiredEntry(prims: Primitives, number: string, stamp: string, draws: Draws, now: Instant)
    requires ValidDraws(draws)
    ensures var e := BuildEntry(prims, number, stamp, draws, now);
      var later := now + 900 * MicrosPerSecond;
      && e.expiryAt < later
      && e in EvictAsWritten([e], later)
  {
  }

  /** With eviction at `expiry_at`, no entry built by `create_entry` outlives 600 seconds. */
  lemma EvictBoundsLifetime(entries: seq<Entry>, now: Instant)
    requires forall i :: 0 <= i < |entries| ==> entries[i].expiryAt == entries[i].createdAt + EntryLifetime
    ensures forall e :: e in Evict(entries, now) ==> now - e.createdAt < EntryLifetime
  {
    forall e | e in Evict(entries, now)
      ensures now - e.createdAt < EntryLifetime
    {
      var i :| 0 <= i < |entries| && entries[i] == e;
    }
  }
}

=== FILE: primitives.dfy ===
/**
 * The cryptographic primitives the registration code calls but whose
 * internals are outside the model: AES (as a block encryption), MD5 and
 * SHA-256.  Each is an arbitrary function of the right shape; only the digest
 * lengths are fixed.
 */
module Primitives {
  import opened Bytes
  import Cfb

  type Md5Digest = s: seq<byte> | |s| == 16
    witness [0, 0, 0, 0, 0, 0, 0, 0, 0, 0, 0, 0, 0, 0, 0, 0]

  type Sha256Digest = s: seq<byte> | |s| == 32
    witness [0, 0, 0, 0, 0, 0, 0, 0, 0, 0, 0, 0, 0, 0, 0, 0, 0, 0, 0, 0, 0, 0, 0, 0, 0, 0, 0, 0, 0, 0, 0, 0]

  datatype Primitives = Primitives(
    aes: Cfb.BlockCipher,
    md5: seq<byte> -> Md5Digest,
    sha256: seq<byte> -> Sha256Digest)
}

=== FILE: request_log.dfy ===
/**
 * `VerificationRequestLog` (models.py): one record per creation attempt that
 * got past the rate check, counted over a trailing 24-hour window.
 */
module RequestLog {
  import opened Models
  import opened Primitives

  datatype LogRecord = LogRecord(mobileNumberHash: string, requestedAt: Instant)

  /** The `verification_request_log` collection in insertion order. */
  type Log = seq<LogRecord>

  /** `timedelta(hours=24)`. */
  const Window: int := 24 * 3600 * MicrosPerSecond

  /** A record `count_requests` at time `now` counts for hash `h`: same hash, `requested_at >= now - 24h`. */
  predicate Counted(r: LogRecord, h: string, now: Instant) {
    r.mobileNumberHash == h && r.requestedAt >= now - Window
  }

  /** The number of records of `log` counted for `h` at `now`. */
  function CountMatching(log: Log, h: string, now: Instant): (n: nat)
    ensures n <= |log|
  {
    if |log| == 0 then 0
    else CountMatching(log[..|log| - 1], h, now) + (if Counted(log[|log| - 1], h, now) then 1 else 0)
  }

  /** The positions of counted records: the query's result set. */
  function CountedPositions(log: Log, h: string, now: Instant): set<nat> {
    set i: nat | i < |log| && Counted(log[i], h, now)
  }

  /** The count is the size of the set of records the query selects. */
  lemma {:induction false} CountMatchingIsQuerySize(log: Log, h: string, now: Instant)
    ensures CountMatching(log, h, now) == |CountedPositions(log, h, now)|
    decreases |log|
  {
    if |log| > 0 {
      var n := |log| - 1;
      var init := log[..n];
      CountMatchingIsQuerySize(init, h, now);
      var before := CountedPositions(init, h, now);
      var after := CountedPositions(log, h, now);
      if Counted(log[n], h, now) {
        assert after == before + {n};
        assert n !in before;
      } else {
        assert after == before;
      }
    }
  }

  /** `count_requests`: records with the number's hash requested within the last 24 hours. */
  function CountRequests(prims: Primitives, log: Log, number: string, now: Instant): (n: nat)
    ensures n == |CountedPositions(log, HashMobileNumber(prims, number), now)|
  {
    CountMatchingIsQuerySize(log, HashMobileNumber(prims, number), now);
    CountMatching(log, HashMobileNumber(prims, number), now)
  }

  /**
   * `log_request`: appends one record for the number's hash, stamped
   * `requestedAt`.  The 24-hour window needs that to be the call time; the
   * field default as written gives the time the class was defined instead.
   */
  function LogRequest(prims: Primitives, log: Log, number: string, requestedAt: Instant): (r: Log)
    ensures |r| == |log| + 1 && r[..|log|] == log
    ensures r[|log|].mobileNumberHash == HashMobileNumber(prims, number) && r[|log|].requestedAt == requestedAt
  {
    log + [LogRecord(HashMobileNumber(prims, number), requestedAt)]
  }

  lemma {:induction false} CountMatchingAppend(a: Log, b: Log, h: string, now: Instant)
    ensures CountMatching(a + b, h, now) == CountMatching(a, h, now) + CountMatching(b, h, now)
    decreases |b|
  {
    if |b| == 0 {
      assert a + b == a;
    } else {
      var n := |b| - 1;
      assert (a + b)[..|a + b| - 1] == a + b[..n];
      assert (a + b)[|a + b| - 1] == b[n];
      CountMatchingAppend(a, b[..n], h, now);
    }
  }

  /** A later query never counts more records than an earlier one. */
  lemma {:induction false} CountMatchingAntitone(log: Log, h: string, t1: Instant, t2: Instant)
    requires t1 <= t2
    ensures CountMatching(log, h, t2) <= CountMatching(log, h, t1)
    decreases |log|
  {
    if |log| > 0 {
      CountMatchingAntitone(log[..|log| - 1], h, t1, t2);
    }
  }

  /** Every record of `log` is for `h` and requested at `since` or later. */
  predicate AllFor(log: Log, h: string, since: Instant) {
    forall i :: 0 <= i < |log| ==> log[i].mobileNumberHash == h && log[i].requestedAt >= since
  }

  /** When every record is for `h` and recent enough, the query counts them all. */
  lemma {:induction false} CountMatchingAll(log: Log, h: string, now: Instant)
    requires AllFor(log, h, now - Window)
    ensures CountMatching(log, h, now) == |log|
    decreases |log|
  {
    if |log| > 0 {
      CountMatchingAll(log[..|log| - 1], h, now);
    }
  }

  /** When no record is recent enough, the query counts nothing. */
  lemma {:induction false} CountMatchingNone(log: Log, h: string, now: Instant)
    requires forall i :: 0 <= i < |log| ==> log[i].requestedAt < now - Window
    ensures CountMatching(log, h, now) == 0
    decreases |log|
  {
    if |log| > 0 {
      CountMatchingNone(log[..|log| - 1], h, now);
    }
  }

  /** Logging one request for `number` adds one to every later count for it within 24 hours. */
  lemma LogRequestCounts(prims: Primitives, log: Log, number: string, t: Instant, now: Instant)
    requires t <= now <= t + Window
    ensures CountRequests(prims, LogRequest(prims, log, number, t), number, now)
         == CountRequests(prims, log, number, now) + 1
  {
    var h := HashMobileNumber(prims, number);
    var r := LogRequest(prims, log, number, t);
    assert r[..|r| - 1] == log;
  }

  /** Logging a request for one number leaves the count of a number with another hash unchanged. */
  lemma LogRequestLeavesOthers(prims: Primitives, log: Log, number: string, other: string, t: Instant, now: Instant)
    requires HashMobileNumber(prims, number) != HashMobileNumber(prims, other)
    ensures CountRequests(prims, LogRequest(prims, log, number, t), other, now)
         == CountRequests(prims, log, other, now)
  {
    var r := LogRequest(prims, log, number, t);
    assert r[..|r| - 1] == log;
  }

  /** `k` requests for `number` logged as written, all stamped with the class-definition time. */
  function LogAsWrittenTimes(prims: Primitives, log: Log, number: string, classDefinedAt: Instant, k: nat): (r: Log)
    ensures |r| == |log| + k
    ensures r[..|log|] == log
    ensures forall i :: |log| <= i < |r| ==> r[i].requestedAt == classDefinedAt
  {
    if k == 0 then log
    else LogRequest(prims, LogAsWrittenTimes(prims, log, number, classDefinedAt, k - 1), number, classDefinedAt)
  }

  /**
   * Once the process has been up for more than 24 hours, records logged as
   * written are never counted: after any number of requests for a number
   * (eleven, say), `count_requests` still returns 0.
   */
  lemma AsWrittenLogIsNeverCounted(prims: Primitives, number: string, classDefinedAt: Instant, now: Instant, k: nat)
    requires now > classDefinedAt + Window
    ensures CountRequests(prims, LogAsWrittenTimes(prims, [], number, classDefinedAt, k), number, now) == 0
  {
    var log := LogAsWrittenTimes(prims, [], number, classDefinedAt, k);
    CountMatchingNone(log, HashMobileNumber(prims, number), now);
  }
}

=== FILE: results.dfy ===
/** Failure-carrying datatypes shared by every module of the model. */
module Results {

  /** A value that may be absent (Python's `None`). */
  datatype Option<+T> = None | Some(value: T)

  /** The value of an operation that either returns or raises. */
  datatype Result<+T, +E> = Ok(value: T) | Err(error: E)
}

=== FILE: retrieve_entries.dfy ===
/**
 * The `retrieve_entries` command: fetching an entry's key from the vault
 * through a per-process cache, and decrypting the stored number.
 */
module RetrieveEntries {
  import opened Bytes
  import opened Results
  import opened Primitives
  import opened Models
  import Hex
  import Utf8
  import Base64
  import Cfb

  /** `Command.key_cache`: entry id to key bytes; a class attribute, so it lives as long as the process. */
  type KeyCache = map<string, seq<byte>>

  /** The exceptions the decrypt path can raise. */
  datatype RetrieveError =
    | SecretNotFound   // `get_secret` on a name the vault does not hold
    | VaultReadFailed  // `get_secret` raising otherwise: network, credentials, no vault URI
    | InvalidKeyHex    // `bytes.fromhex` on the secret value
    | InvalidBase64    // `b64decode` on the stored text
    | WrongKeySize   // `algorithms.AES(key)`
    | ShortIv    // `modes.CFB(iv)` with fewer than 16 bytes
    | InvalidUtf8      // `decode('utf-8')`

  /** The key (or the error), the cache afterwards, and the secret names read from the vault. */
  datatype KeyLookup = KeyLookup(key: Result<seq<byte>, RetrieveError>, cache: KeyCache, vaultReads: seq<string>)

  /** The cache `after` extends `before`: no key is dropped or changed. */
  predicate Extends(before: KeyCache, after: KeyCache) {
    forall id :: id in before ==> id in after && after[id] == before[id]
  }

  /**
   * `get_encryption_key`: a cached key is returned without touching the
   * vault; otherwise secret `encryption-key-<id>` is read, hex-decoded and
   * cached.  `readFails` holds the secret names whose read raises for a
   * reason other than a missing secret.
   */
  function GetEncryptionKey(cache: KeyCache, vault: Vault, readFails: set<string>, id: string): (r: KeyLookup)
    ensures id in cache ==> r == KeyLookup(Ok(cache[id]), cache, [])
    ensures id !in cache ==> r.vaultReads == [KeyName(id)]
    ensures id !in cache && KeyName(id) in readFails ==> r.key == Err(VaultReadFailed)
    ensures id !in cache && KeyName(id) !in readFails && KeyName(id) !in vault ==> r.key == Err(SecretNotFound)
    ensures id !in cache && KeyName(id) !in readFails && KeyName(id) in vault ==>
      (r.key.Ok? <==> Hex.FromHex(vault[KeyName(id)].value).Ok?)
      && (r.key.Ok? ==> r.key.value == Hex.FromHex(vault[KeyName(id)].value).value)
    ensures id !in cache && KeyName(id) !in readFails && KeyName(id) in vault ==>
      Hex.FromHex(vault[KeyName(id)].value).Err? ==> r.key == Err(InvalidKeyHex)
    ensures r.key.Ok? ==> id in r.cache && r.cache[id] == r.key.value
    ensures r.key.Err? ==> r.cache == cache
    ensures Extends(cache, r.cache) && r.cache.Keys <= cache.Keys + {id}
  {
    if id in cache then KeyLookup(Ok(cache[id]), cache, [])
    else
      var name := KeyName(id);
      if name in readFails then KeyLookup(Err(VaultReadFailed), cache, [name])
      else if name !in vault then KeyLookup(Err(SecretNotFound), cache, [name])
      else
        match Hex.FromHex(vault[name].value)
        case Err(_) => KeyLookup(Err(InvalidKeyHex), cache, [name])
        case Ok(key) => KeyLookup(Ok(key), cache[id := key], [name])
  }

  /**
   * `decrypt_mobile_number`: base64-decode, take the first 16 bytes as the IV
   * and the rest as the CFB ciphertext, decrypt and decode as UTF-8.
   */
  function DecryptMobileNumber(prims: Primitives, text: string, key: seq<byte>): (r: Result<string, RetrieveError>)
    ensures Base64.Decode(text).Err? ==> r == Err(InvalidBase64)
    ensures Base64.Decode(text).Ok? && !Cfb.IsAesKeyLength(|key|) ==> r == Err(WrongKeySize)
    ensures Base64.Decode(text).Ok? && Cfb.IsAesKeyLength(|key|) && |Base64.Decode(text).value| < 16 ==>
      r == Err(ShortIv)
    ensures r.Ok? ==>
      var data := Base64.Decode(text).value;
      && |data| >= 16
      && Utf8.Encode(r.value) == Cfb.Decrypt(prims.aes, key, data[..16], data[16..])
    ensures var d := Base64.Decode(text);
      d.Ok? && Cfb.IsAesKeyLength(|key|) && |d.value| >= 16 ==>
        (r.Ok? <==> Utf8.Decode(Cfb.Decrypt(prims.aes, key, d.value[..16], d.value[16..])).Ok?)
    ensures var d := Base64.Decode(text);
      d.Ok? && Cfb.IsAesKeyLength(|key|) && |d.value| >= 16 && r.Err? ==> r == Err(InvalidUtf8)
  {
    match Base64.Decode(text)
    case Err(_) => Err(InvalidBase64)
    case Ok(data) =>
      if !Cfb.IsAesKeyLength(|key|) then Err(WrongKeySize)
      else if |data| < 16 then Err(ShortIv)
      else
        var iv: Cfb.Block := data[..16];
        match Utf8.Decode(Cfb.Decrypt(prims.aes, key, iv, data[16..]))
        case Err(_) => Err(InvalidUtf8)
        case Ok(number) =>
          Utf8.EncodeDecode(Cfb.Decrypt(prims.aes, key, iv, data[16..]));
          Ok(number)
  }

  /** Round trip: what `encrypt_mobile_number` produced under a key decrypts under the same key to the number. */
  lemma DecryptEncrypt(prims: Primitives, number: string, key: seq<byte>, iv: Cfb.Block)
    requires Cfb.IsAesKeyLength(|key|)
    ensures DecryptMobileNumber(prims, EncryptMobileNumber(prims, number, key, iv).value, key) == Ok(number)
  {
    EncryptedFrame(prims, number, key, iv);
    var text := EncryptMobileNumber(prims, number, key, iv).value;
    var data := Base64.Decode(text).value;
    assert Cfb.Decrypt(prims.aes, key, data[..16], data[16..]) == Utf8.Encode(number);
    Utf8.DecodeEncode(number);
  }

  // ------------------------------------------------------------- handle

  /** What `handle` writes for one entry. */
  datatype Report =
    | Decrypted(id: string, number: string, servicePrefix: string, createdAt: Instant, expiryAt: Instant, isVerified: string)
    | Failed(id: string, error: RetrieveError)

  datatype Listing = NoEntries | Reports(reports: seq<Report>)

  /** The report for one entry given the key lookup for it. */
  function ReportFor(prims: Primitives, e: Entry, key: Result<seq<byte>, RetrieveError>): (r: Report)
    ensures r.id == e.id
  {
    match key
    case Err(err) => Failed(e.id, err)
    case Ok(k) =>
      match DecryptMobileNumber(prims, e.mobileNumber, k)
      case Err(err) => Failed(e.id, err)
      case Ok(number) => Decrypted(e.id, number, e.servicePrefix, e.createdAt, e.expiryAt, e.isVerified)
  }

  /** The report for entry `e` is consistent with the final cache and the vault. */
  predicate ReportAgrees(prims: Primitives, e: Entry, r: Report, cache: KeyCache, vault: Vault, readFails: set<string>) {
    && r.id == e.id
    && (r.Decrypted? ==>
          && e.id in cache
          && DecryptMobileNumber(prims, e.mobileNumber, cache[e.id]) == Ok(r.number)
          && r.servicePrefix == e.servicePrefix && r.createdAt == e.createdAt
          && r.expiryAt == e.expiryAt && r.isVerified == e.isVerified)
    && (r.Failed? ==>
          if e.id in cache then DecryptMobileNumber(prims, e.mobileNumber, cache[e.id]).Err?
          else KeyName(e.id) in readFails || KeyName(e.id) !in vault || Hex.FromHex(vault[KeyName(e.id)].value).Err?)
  }

  /** Every key the command added to the cache is the hex-decoded vault secret of that id. */
  predicate FromVault(before: KeyCache, after: KeyCache, vault: Vault, readFails: set<string>) {
    forall id :: id in after && id !in before ==>
      KeyName(id) !in readFails && KeyName(id) in vault && Hex.FromHex(vault[KeyName(id)].value) == Ok(after[id])
  }

  /**
   * `handle`: every entry gets one report, in order; a failure on one entry
   * is reported and the loop goes on with the next.
   */
  method Handle(prims: Primitives, cache: KeyCache, vault: Vault, readFails: set<string>, entries: seq<Entry>)
    returns (listing: Listing, finalCache: KeyCache)
    ensures |entries| == 0 <==> listing == NoEntries
    ensures listing.Reports? ==>
      && |listing.reports| == |entries|
      && forall i :: 0 <= i < |entries| ==> ReportAgrees(prims, entries[i], listing.reports[i], finalCache, vault, readFails)
    ensures Extends(cache, finalCache) && FromVault(cache, finalCache, vault, readFails)
  {
    finalCache := cache;
    if |entries| == 0 {
      listing := NoEntries;
    } else {
      var reports: seq<Report> := [];
      var i := 0;
      while i < |entries|
        invariant 0 <= i <= |entries|
        invariant |reports| == i
        invariant Extends(cache, finalCache) && FromVault(cache, finalCache, vault, readFails)
        invariant forall j :: 0 <= j < i ==> ReportAgrees(prims, entries[j], reports[j], finalCache, vault, readFails)
      {
        var e := entries[i];
        var lookup := GetEncryptionKey(finalCache, vault, readFails, e.id);
        var report := ReportFor(prims, e, lookup.key);
        assert ReportAgrees(prims, e, report, lookup.cache, vault, readFails);
        forall j | 0 <= j < i
          ensures ReportAgrees(prims, entries[j], reports[j], lookup.cache, vault, readFails)
        {
          assert ReportAgrees(prims, entries[j], reports[j], finalCache, vault, readFails);
        }
        finalCache := lookup.cache;
        reports := reports + [report];
        i := i + 1;
      }
      listing := Reports(reports);
    }
  }
}

=== FILE: utf8.dfy ===
/**
 * Python's strict UTF-8 codec: `str.encode()` turns the mobile number into the
 * bytes that are hashed and encrypted, `bytes.decode('utf-8')` turns the
 * decrypted bytes back into text.
 */
module Utf8 {
  import opened Bytes
  import opened Results

  /** `bytes.decode('utf-8')` raises `UnicodeDecodeError` on an ill-formed sequence. */
  datatype Utf8Error = InvalidUtf8

  /** The one to four bytes of a scalar value, shortest form. */
  function EncodeChar(c: char): (b: seq<byte>)
    ensures 1 <= |b| <= 4
  {
    var cp := c as int;
    if cp < 0x80 then [cp]
    else if cp < 0x800 then [0xC0 + cp / 64, 0x80 + cp % 64]
    else if cp < 0x10000 then [0xE0 + cp / 4096, 0x80 + (cp / 64) % 64, 0x80 + cp % 64]
    else [0xF0 + cp / 262144, 0x80 + (cp / 4096) % 64, 0x80 + (cp / 64) % 64, 0x80 + cp % 64]
  }

  /** `s.encode()`. */
  function Encode(s: string): (b: seq<byte>)
    ensures |s| <= |b| <= 4 * |s|
  {
    if |s| == 0 then [] else EncodeChar(s[0]) + Encode(s[1..])
  }

  predicate IsContinuation(b: byte) {
    0x80 <= b <= 0xBF
  }

  /** The range the second byte of a three-byte form must fall in (no overlong form, no surrogate). */
  predicate SecondOfThree(b0: byte, b1: byte) {
    if b0 == 0xE0 then 0xA0 <= b1 <= 0xBF
    else if b0 == 0xED then 0x80 <= b1 <= 0x9F
    else IsContinuation(b1)
  }

  /** The range the second byte of a four-byte form must fall in (no overlong form, nothing past U+10FFFF). */
  predicate SecondOfFour(b0: byte, b1: byte) {
    if b0 == 0xF0 then 0x90 <= b1 <= 0xBF
    else if b0 == 0xF4 then 0x80 <= b1 <= 0x8F
    else IsContinuation(b1)
  }

  /** The scalar value that starts `b` and how many bytes it takes, or `None` when `b` starts ill-formed. */
  function DecodeFirst(b: seq<byte>): (r: Option<(char, nat)>)
    requires |b| > 0
    ensures r.Some? ==> 1 <= r.value.1 <= |b|
  {
    var b0: int := b[0];
    if b0 < 0x80 then Some((b0 as char, 1))
    else if 0xC2 <= b0 <= 0xDF then
      if |b| >= 2 && IsContinuation(b[1]) then
        Some((((b0 - 0xC0) * 64 + (b[1] as int - 0x80)) as char, 2))
      else None
    else if 0xE0 <= b0 <= 0xEF then
      if |b| >= 3 && SecondOfThree(b0, b[1]) && IsContinuation(b[2]) then
        Some((((b0 - 0xE0) * 4096 + (b[1] as int - 0x80) * 64 + (b[2] as int - 0x80)) as char, 3))
      else None
    else if 0xF0 <= b0 <= 0xF4 then
      if |b| >= 4 && SecondOfFour(b0, b[1]) && IsContinuation(b[2]) && IsContinuation(b[3]) then
        Some((((b0 - 0xF0) * 262144 + (b[1] as int - 0x80) * 4096 + (b[2] as int - 0x80) * 64 + (b[3] as int - 0x80)) as char, 4))
      else None
    else None
  }

  /** `b.decode('utf-8')`. */
  function Decode(b: seq<byte>): Result<string, Utf8Error>
    decreases |b|
  {
    if |b| == 0 then Ok([])
    else
      match DecodeFirst(b)
      case None => Err(InvalidUtf8)
      case Some((c, n)) =>
        match Decode(b[n..])
        case Ok(rest) => Ok([c] + rest)
        case Err(e) => Err(e)
  }

  lemma DecodeFirstOfTwo(c: char, rest: seq<byte>)
    requires 0x80 <= c as int < 0x800
    ensures DecodeFirst(EncodeChar(c) + rest) == Some((c, 2))
  {
    var cp := c as int;
    var b := EncodeChar(c) + rest;
    assert b[0] == 0xC0 + cp / 64 && b[1] == 0x80 + cp % 64;
    assert (cp / 64) * 64 + cp % 64 == cp;
  }

  /** The base-64 digits of a code point below 2^18, as `EncodeChar` takes them apart. */
  lemma Digits(cp: nat)
    ensures cp / 4096 == (cp / 64) / 64
    ensures cp == (cp / 4096) * 4096 + ((cp / 64) % 64) * 64 + cp % 64
  {
    DivMod4096(cp, (cp / 64) / 64, ((cp / 64) % 64) * 64 + cp % 64);
  }

  /** The next digit up, for a code point of four bytes. */
  lemma TopDigits(cp: nat)
    ensures cp / 262144 == (cp / 4096) / 64
    ensures cp == (cp / 262144) * 262144 + ((cp / 4096) % 64) * 4096 + ((cp / 64) % 64) * 64 + cp % 64
  {
    Digits(cp);
    var q := cp / 4096;
    DivMod262144(cp, q / 64, (q % 64) * 4096 + ((cp / 64) % 64) * 64 + cp % 64);
  }

  lemma DecodeFirstOfThree(c: char, rest: seq<byte>)
    requires 0x800 <= c as int < 0x10000
    ensures DecodeFirst(EncodeChar(c) + rest) == Some((c, 3))
  {
    var cp := c as int;
    Digits(cp);
    var hi, mid, lo := cp / 4096, (cp / 64) % 64, cp % 64;
    var b := EncodeChar(c) + rest;
    assert b[0] == 0xE0 + hi && b[1] == 0x80 + mid && b[2] == 0x80 + lo;
    assert hi == 0 ==> mid >= 32;
    assert hi == 13 ==> mid < 32;
  }

  lemma DecodeFirstOfFour(c: char, rest: seq<byte>)
    requires 0x10000 <= c as int
    ensures DecodeFirst(EncodeChar(c) + rest) == Some((c, 4))
  {
    var cp := c as int;
    TopDigits(cp);
    var top, hi, mid, lo := cp / 262144, (cp / 4096) % 64, (cp / 64) % 64, cp % 64;
    var b := EncodeChar(c) + rest;
    assert b[0] == 0xF0 + top && b[1] == 0x80 + hi && b[2] == 0x80 + mid && b[3] == 0x80 + lo;
    assert top == 0 ==> hi >= 16;
    assert top == 4 ==> hi < 16;
  }

  /** Decoding the encoding of one character yields that character and consumes exactly its bytes. */
  lemma DecodeFirstOfEncode(c: char, rest: seq<byte>)
    ensures DecodeFirst(EncodeChar(c) + rest) == Some((c, |EncodeChar(c)|))
  {
    var cp := c as int;
    if cp < 0x80 {
    } else if cp < 0x800 {
      DecodeFirstOfTwo(c, rest);
    } else if cp < 0x10000 {
      DecodeFirstOfThree(c, rest);
    } else {
      DecodeFirstOfFour(c, rest);
    }
  }

  lemma DropPrefix(head: seq<byte>, tail: seq<byte>)
    ensures (head + tail)[|head|..] == tail
  {
  }

  lemma ConsChar(s: string)
    requires |s| > 0
    ensures [s[0]] + s[1..] == s
  {
  }

  /** Text survives `encode()` followed by `decode('utf-8')`. */
  lemma {:induction false} DecodeEncode(s: string)
    ensures Decode(Encode(s)) == Ok(s)
    decreases |s|
  {
    if |s| > 0 {
      var head, tail := EncodeChar(s[0]), Encode(s[1..]);
      EncodeCons(s);
      DecodeFirstOfEncode(s[0], tail);
      DropPrefix(head, tail);
      DecodeEncode(s[1..]);
      ConsChar(s);
    }
  }

  /** Distinct strings encode to distinct bytes, so hashing the bytes is hashing the text. */
  lemma EncodeInjective(s: string, t: string)
    ensures Encode(s) == Encode(t) ==> s == t
  {
    DecodeEncode(s);
    DecodeEncode(t);
  }

  /** Division by 64 recovers quotient and remainder. */
  lemma DivMod64(a: int, q: int, r: int)
    requires 0 <= r < 64 && a == q * 64 + r
    ensures a / 64 == q && a % 64 == r
  {
  }

  /** Division by 4096 recovers quotient and remainder. */
  lemma DivMod4096(a: int, q: int, r: int)
    requires 0 <= r < 4096 && a == q * 4096 + r
    ensures a / 4096 == q && a % 4096 == r
  {
  }

  /** Division by 262144 recovers quotient and remainder. */
  lemma DivMod262144(a: int, q: int, r: int)
    requires 0 <= r < 262144 && a == q * 262144 + r
    ensures a / 262144 == q && a % 262144 == r
  {
  }

  lemma EncodeOfTwo(b0: byte, b1: byte)
    requires 0xC2 <= b0 <= 0xDF && IsContinuation(b1)
    ensures EncodeChar(((b0 - 0xC0) * 64 + (b1 - 0x80)) as char) == [b0, b1]
  {
    var cp := (b0 - 0xC0) * 64 + (b1 - 0x80);
    DivMod64(cp, b0 - 0xC0, b1 - 0x80);
  }

  lemma EncodeOfThree(b0: byte, b1: byte, b2: byte)
    requires 0xE0 <= b0 <= 0xEF && SecondOfThree(b0, b1) && IsContinuation(b2)
    ensures EncodeChar(((b0 - 0xE0) * 4096 + (b1 - 0x80) * 64 + (b2 - 0x80)) as char) == [b0, b1, b2]
  {
    var hi, mid, lo := b0 - 0xE0, b1 - 0x80, b2 - 0x80;
    var cp := hi * 4096 + mid * 64 + lo;
    DivMod64(cp, hi * 64 + mid, lo);
    DivMod64(hi * 64 + mid, hi, mid);
    DivMod4096(cp, hi, mid * 64 + lo);
  }

  lemma EncodeOfFour(b0: byte, b1: byte, b2: byte, b3: byte)
    requires 0xF0 <= b0 <= 0xF4 && SecondOfFour(b0, b1) && IsContinuation(b2) && IsContinuation(b3)
    ensures EncodeChar(((b0 - 0xF0) * 262144 + (b1 - 0x80) * 4096 + (b2 - 0x80) * 64 + (b3 - 0x80)) as char)
            == [b0, b1, b2, b3]
  {
    var top, hi, mid, lo := b0 - 0xF0, b1 - 0x80, b2 - 0x80, b3 - 0x80;
    var cp := top * 262144 + hi * 4096 + mid * 64 + lo;
    DivMod64(cp, top * 4096 + hi * 64 + mid, lo);
    DivMod64(top * 4096 + hi * 64 + mid, top * 64 + hi, mid);
    DivMod64(top * 64 + hi, top, hi);
    DivMod4096(cp, top * 64 + hi, mid * 64 + lo);
    DivMod262144(cp, top, hi * 4096 + mid * 64 + lo);
  }

  /** The first character the decoder reads re-encodes to exactly the bytes it consumed. */
  lemma EncodeCharOfDecodeFirst(b: seq<byte>)
    requires |b| > 0 && DecodeFirst(b).Some?
    ensures EncodeChar(DecodeFirst(b).value.0) == b[..DecodeFirst(b).value.1]
  {
    var n := DecodeFirst(b).value.1;
    if n == 2 {
      EncodeOfTwo(b[0], b[1]);
      assert b[..2] == [b[0], b[1]];
    } else if n == 3 {
      EncodeOfThree(b[0], b[1], b[2]);
      assert b[..3] == [b[0], b[1], b[2]];
    } else if n == 4 {
      EncodeOfFour(b[0], b[1], b[2], b[3]);
      assert b[..4] == [b[0], b[1], b[2], b[3]];
    }
  }

  /** One step of a successful decode: the first character, then the decode of the rest. */
  lemma DecodeCons(b: seq<byte>)
    requires |b| > 0 && Decode(b).Ok?
    ensures DecodeFirst(b).Some?
    ensures Decode(b[DecodeFirst(b).value.1..]).Ok?
    ensures Decode(b).value == [DecodeFirst(b).value.0] + Decode(b[DecodeFirst(b).value.1..]).value
  {
  }

  /** `Encode` on a non-empty string, one character at a time. */
  lemma EncodeCons(s: string)
    requires |s| > 0
    ensures Encode(s) == EncodeChar(s[0]) + Encode(s[1..])
  {
  }

  lemma SplitAt(b: seq<byte>, n: nat)
    requires n <= |b|
    ensures b[..n] + b[n..] == b
  {
  }

  /** Whatever the decoder accepts is the encoding of what it returns. */
  lemma {:induction false} EncodeDecode(b: seq<byte>)
    requires Decode(b).Ok?
    ensures Encode(Decode(b).value) == b
    decreases |b|
  {
    if |b| > 0 {
      DecodeCons(b);
      var n := DecodeFirst(b).value.1;
      var s := Decode(b).value;
      var rest := Decode(b[n..]).value;
      EncodeDecode(b[n..]);
      EncodeCharOfDecodeFirst(b);
      EncodeCons(s);
      assert s[1..] == rest;
      SplitAt(b, n);
    }
  }
}

=== FILE: views.dfy ===
/**
 * `MobileNumberCreateView.post` (views.py): the order of the profile check
 * (409), the rate limit (429), the request log, payload validation (400) and
 * creation (201), and the arguments of the OTP trigger.
 */
module Views {
  import opened Results
  import opened Primitives
  import opened Models
  import opened RequestLog

  /** The fields of the request body the view reads; `None` for a missing or non-string value. */
  datatype Request = Request(mobileNumber: Option<string>, servicePrefix: Option<string>)

  /**
   * What one handling of a request sees besides the request: the clock read
   * of `count_requests` and `create_entry` (`now`, and `stamp`, its
   * `%Y%m%d%H%M%S` rendering), the `requested_at` the log record is saved with
   * (`logStamp`), the random draws and the failing remote calls.  The 24-hour
   * window needs `logStamp` to be `now`; the field default as written
   * (models.py:194) makes it the time the class was defined, the same for
   * every request of a process.
   */
  datatype Handling = Handling(now: Instant, logStamp: Instant, stamp: string, draws: Draws, faults: Faults)

  /** The 201 response body. */
  datatype Body = Body(
    id: string,
    mobileNumber: string,
    servicePrefix: string,
    createdAt: Instant,
    expiryAt: Instant,
    isVerified: string)

  datatype Response = Conflict | TooManyRequests | BadRequest | Created(body: Body) | ServerError

  /** The arguments the OTP-management thread is started with. */
  datatype OtpCall = OtpCall(encryptedMobileNumber: string, documentId: string)

  /** Everything the view reads or writes: the entry collection with the vault, and the request log. */
  datatype World = World(stores: Stores, log: Log)

  datatype Outcome = Outcome(world: World, response: Response, otp: Option<OtpCall>)

  /** `MobileNumberSerializer(data=...).is_valid()`: the validated number, or `None` for a 400. */
  type Validator = string -> Option<string>

  /** More than this many logged requests in 24 hours are refused. */
  const RateLimit: nat := 10

  function BodyOf(e: Entry): Body {
    Body(e.id, e.mobileNumber, e.servicePrefix, e.createdAt, e.expiryAt, e.isVerified)
  }

  /**
   * `post`.  Hashing a missing or non-string number raises, which the
   * framework answers with a 500; so does a failing dedup lookup inside
   * `create_entry`, after the request was logged.
   */
  function Post(prims: Primitives, profiles: seq<string>, validate: Validator, w: World,
                req: Request, env: Handling): (o: Outcome)
    requires ValidDraws(env.draws)
    ensures req.mobileNumber.None? ==> o == Outcome(w, ServerError, None)
    ensures req.mobileNumber.Some? ==>
      var n := req.mobileNumber.value;
      && (o.response == Conflict <==> CheckUserProfileExists(prims, profiles, n))
      && (o.response == TooManyRequests <==>
            !CheckUserProfileExists(prims, profiles, n) && CountRequests(prims, w.log, n, env.now) >= RateLimit)
      && (o.response in {Conflict, TooManyRequests} ==> o.world == w && o.otp.None?)
      && (o.response !in {Conflict, TooManyRequests} ==> o.world.log == LogRequest(prims, w.log, n, env.logStamp))
      && (o.response == BadRequest <==> o.response !in {Conflict, TooManyRequests} && validate(n).None?)
      && (o.response.Created? <==>
            && !CheckUserProfileExists(prims, profiles, n) && CountRequests(prims, w.log, n, env.now) < RateLimit
            && validate(n).Some? && !env.faults.lookup)
    ensures o.response == ServerError ==> (req.mobileNumber.None? || env.faults.lookup) && o.world.stores == w.stores
    ensures o.response.Created? ==>
      && req.mobileNumber.Some? && validate(req.mobileNumber.value).Some?
      && var e := BuildEntry(prims, validate(req.mobileNumber.value).value, env.stamp, env.draws, env.now);
      && o.response.body == BodyOf(e)
      && o.otp == Some(OtpCall(e.mobileNumber, e.id))
      && o.world.stores
         == CreateEntry(prims, w.stores, validate(req.mobileNumber.value).value, env.stamp, env.draws, env.now, env.faults).value.stores
    ensures !o.response.Created? ==> o.otp.None?
    ensures o.response.BadRequest? ==> o.world.stores == w.stores
  {
    match req.mobileNumber
    case None => Outcome(w, ServerError, None)
    case Some(n) =>
      if CheckUserProfileExists(prims, profiles, n) then Outcome(w, Conflict, None)
      else if CountRequests(prims, w.log, n, env.now) >= RateLimit then Outcome(w, TooManyRequests, None)
      else
        var log := LogRequest(prims, w.log, n, env.logStamp);
        match validate(n)
        case None => Outcome(World(w.stores, log), BadRequest, None)
        case Some(v) =>
          match CreateEntry(prims, w.stores, v, env.stamp, env.draws, env.now, env.faults)
          case Err(_) => Outcome(World(w.stores, log), ServerError, None)
          case Ok(c) => Outcome(World(c.stores, log), Created(BodyOf(c.entry)), Some(OtpCall(c.entry.mobileNumber, c.entry.id)))
  }

  /** A 201 body always carries the fixed prefix, the unverified status and a 600-second lifetime, whatever was sent. */
  lemma CreatedBodyIsFixed(prims: Primitives, profiles: seq<string>, validate: Validator, w: World,
                           req: Request, env: Handling)
    requires ValidDraws(env.draws)
    ensures var o := Post(prims, profiles, validate, w, req, env);
      o.response.Created? ==>
        && o.response.body.servicePrefix == "UR"
        && o.response.body.isVerified == "Not verified"
        && o.response.body.expiryAt == o.response.body.createdAt + 600 * 1000000
        && o.response.body.createdAt == env.now
  {
  }

  /** On a profile conflict the request log is neither read nor written: any log gives the same answer. */
  lemma ConflictIgnoresLog(prims: Primitives, profiles: seq<string>, validate: Validator, stores: Stores,
                           log1: Log, log2: Log, req: Request, env: Handling)
    requires ValidDraws(env.draws)
    requires Post(prims, profiles, validate, World(stores, log1), req, env).response == Conflict
    ensures Post(prims, profiles, validate, World(stores, log2), req, env) == Outcome(World(stores, log2), Conflict, None)
  {
  }

  /** The `service_prefix` of the request plays no part: the entry always gets `"UR"`. */
  lemma ServicePrefixIgnored(prims: Primitives, profiles: seq<string>, validate: Validator, w: World,
                             number: Option<string>, p1: Option<string>, p2: Option<string>, env: Handling)
    requires ValidDraws(env.draws)
    ensures Post(prims, profiles, validate, w, Request(number, p1), env)
         == Post(prims, profiles, validate, w, Request(number, p2), env)
  {
  }

  // ------------------------------------------------------ request sequences

  datatype Step = Step(request: Request, handling: Handling)

  predicate ValidSteps(steps: seq<Step>) {
    forall i :: 0 <= i < |steps| ==> ValidDraws(steps[i].handling.draws)
  }

  /** A response that the rate check let through. */
  predicate PassedLimit(r: Response) {
    r != Conflict && r != TooManyRequests
  }

  function CountPassed(rs: seq<Response>): (n: nat)
    ensures n <= |rs|
  {
    if |rs| == 0 then 0
    else CountPassed(rs[..|rs| - 1]) + (if PassedLimit(rs[|rs| - 1]) then 1 else 0)
  }

  /** Handling the requests one after another, each seeing the world its predecessor left. */
  function Run(prims: Primitives, profiles: seq<string>, validate: Validator, w: World, steps: seq<Step>): (r: (World, seq<Response>))
    requires ValidSteps(steps)
    ensures |r.1| == |steps|
    decreases |steps|
  {
    if |steps| == 0 then (w, [])
    else
      var prefix := Run(prims, profiles, validate, w, steps[..|steps| - 1]);
      var o := Post(prims, profiles, validate, prefix.0, steps[|steps| - 1].request, steps[|steps| - 1].handling);
      (o.world, prefix.1 + [o.response])
  }

  /**
   * Every request of `steps` is for `number`, handled between `t0` and `t0`
   * plus 24 hours, and logged with the time it was handled at.
   */
  predicate InWindow(steps: seq<Step>, number: string, t0: Instant) {
    forall i :: 0 <= i < |steps| ==>
      && steps[i].request.mobileNumber == Some(number)
      && t0 <= steps[i].handling.now <= t0 + Window
      && steps[i].handling.logStamp == steps[i].handling.now
  }

  /**
   * One request for `number` inside the window, against a log made of older
   * records and `added` records for the number stamped inside the window: it
   * passes the rate check only while fewer than ten were added, and then
   * adds exactly one such record.
   */
  lemma StepInWindow(prims: Primitives, profiles: seq<string>, validate: Validator, stores: Stores,
                     base: Log, added: Log, req: Request, env: Handling, number: string, t0: Instant)
    requires ValidDraws(env.draws) && req.mobileNumber == Some(number) && t0 <= env.now <= t0 + Window
    requires env.logStamp == env.now
    requires AllFor(added, HashMobileNumber(prims, number), t0)
    ensures var o := Post(prims, profiles, validate, World(stores, base + added), req, env);
      && (PassedLimit(o.response) ==>
            && |added| < RateLimit
            && o.world.log == base + (added + [LogRecord(HashMobileNumber(prims, number), env.now)]))
      && (!PassedLimit(o.response) ==> o.world.log == base + added)
      && ((!CheckUserProfileExists(prims, profiles, number)
           && CountRequests(prims, base, number, env.now) + |added| < RateLimit) ==> PassedLimit(o.response))
  {
    var h := HashMobileNumber(prims, number);
    CountMatchingAppend(base, added, h, env.now);
    CountMatchingAll(added, h, env.now);
    assert (base + added) + [LogRecord(h, env.now)] == base + (added + [LogRecord(h, env.now)]);
  }

  /** The log facts a window keeps, for a log that grew from `base` to `log` over the responses `rs`. */
  predicate GrewInWindow(base: Log, log: Log, rs: seq<Response>, h: string, t0: Instant) {
    && |base| <= |log|
    && log == base + log[|base|..]
    && AllFor(log[|base|..], h, t0)
    && |log| - |base| == CountPassed(rs) <= RateLimit
  }

  /** The bookkeeping of one more step of `RunLogInWindow`, apart from the request itself. */
  lemma GrowOneStep(base: Log, added: Log, log': Log, rs: seq<Response>, resp: Response,
                    h: string, t0: Instant, now: Instant)
    requires GrewInWindow(base, base + added, rs, h, t0) && t0 <= now
    requires PassedLimit(resp) ==> |added| < RateLimit && log' == base + (added + [LogRecord(h, now)])
    requires !PassedLimit(resp) ==> log' == base + added
    ensures GrewInWindow(base, log', rs + [resp], h, t0)
  {
    assert (base + added)[|base|..] == added;
    assert (rs + [resp])[..|rs|] == rs;
    var grown := log'[|base|..];
    if PassedLimit(resp) {
      assert grown == added + [LogRecord(h, now)];
    } else {
      assert grown == added;
    }
  }

  /** The last step of a run, as `Run` defines it. */
  lemma RunLast(prims: Primitives, profiles: seq<string>, validate: Validator, w: World, steps: seq<Step>)
    requires ValidSteps(steps) && |steps| > 0
    ensures var init := steps[..|steps| - 1];
      var prefix := Run(prims, profiles, validate, w, init);
      var o := Post(prims, profiles, validate, prefix.0, steps[|steps| - 1].request, steps[|steps| - 1].handling);
      Run(prims, profiles, validate, w, steps) == (o.world, prefix.1 + [o.response])
  {
  }

  lemma InitInWindow(steps: seq<Step>, number: string, t0: Instant)
    requires ValidSteps(steps) && InWindow(steps, number, t0) && |steps| > 0
    ensures ValidSteps(steps[..|steps| - 1]) && InWindow(steps[..|steps| - 1], number, t0)
  {
  }

  /**
   * Within one window the log only grows by records for the number stamped
   * inside the window, one per request that passed the rate check, and never
   * by more than ten.
   */
  lemma {:induction false} RunLogInWindow(prims: Primitives, profiles: seq<string>, validate: Validator,
                                          w: World, steps: seq<Step>, number: string, t0: Instant)
    requires ValidSteps(steps) && InWindow(steps, number, t0)
    ensures var r := Run(prims, profiles, validate, w, steps);
      GrewInWindow(w.log, r.0.log, r.1, HashMobileNumber(prims, number), t0)
    decreases |steps|
  {
    var r := Run(prims, profiles, validate, w, steps);
    if |steps| == 0 {
      assert r.0.log[|w.log|..] == [];
    } else {
      var h := HashMobileNumber(prims, number);
      var init := steps[..|steps| - 1];
      var last := steps[|steps| - 1];
      InitInWindow(steps, number, t0);
      RunLogInWindow(prims, profiles, validate, w, init, number, t0);
      var prefix := Run(prims, profiles, validate, w, init);
      var added := prefix.0.log[|w.log|..];
      assert prefix.0 == World(prefix.0.stores, w.log + added);
      StepInWindow(prims, profiles, validate, prefix.0.stores, w.log, added, last.request, last.handling, number, t0);
      RunLast(prims, profiles, validate, w, steps);
      var o := Post(prims, profiles, validate, prefix.0, last.request, last.handling);
      GrowOneStep(w.log, added, o.world.log, prefix.1, o.response, h, t0, last.handling.now);
    }
  }

  /** At most ten requests for one number get past the rate check within one 24-hour window. */
  lemma AtMostTenPerWindow(prims: Primitives, profiles: seq<string>, validate: Validator,
                           w: World, steps: seq<Step>, number: string, t0: Instant)
    requires ValidSteps(steps) && InWindow(steps, number, t0)
    ensures CountPassed(Run(prims, profiles, validate, w, steps).1) <= RateLimit
  {
    RunLogInWindow(prims, profiles, validate, w, steps, number, t0);
  }

  lemma AllPassSnoc(rs: seq<Response>, resp: Response)
    requires forall i :: 0 <= i < |rs| ==> PassedLimit(rs[i])
    requires PassedLimit(resp)
    ensures forall i :: 0 <= i < |rs| + 1 ==> PassedLimit((rs + [resp])[i])
  {
  }

  /**
   * The request after a run in which every request passed: it passes too
   * while fewer than ten were logged, and is refused with 429 once ten were.
   */
  lemma {:induction false} NextAfterPassing(prims: Primitives, profiles: seq<string>, validate: Validator,
                                            w: World, steps: seq<Step>, number: string, t0: Instant)
    requires ValidSteps(steps) && InWindow(steps, number, t0) && 0 < |steps| <= RateLimit + 1
    requires !CheckUserProfileExists(prims, profiles, number)
    requires CountRequests(prims, w.log, number, t0) == 0
    requires var prefix := Run(prims, profiles, validate, w, steps[..|steps| - 1]);
      forall i :: 0 <= i < |prefix.1| ==> PassedLimit(prefix.1[i])
    ensures var r := Run(prims, profiles, validate, w, steps);
      && (|steps| <= RateLimit ==> PassedLimit(r.1[|steps| - 1]))
      && (|steps| == RateLimit + 1 ==> r.1[RateLimit] == TooManyRequests)
  {
    var h := HashMobileNumber(prims, number);
    var init := steps[..|steps| - 1];
    var last := steps[|steps| - 1];
    InitInWindow(steps, number, t0);
    RunLogInWindow(prims, profiles, validate, w, init, number, t0);
    var prefix := Run(prims, profiles, validate, w, init);
    var added := prefix.0.log[|w.log|..];
    assert prefix.0 == World(prefix.0.stores, w.log + added);
    CountAllPassed(prefix.1);
    CountMatchingAntitone(w.log, h, t0, last.handling.now);
    StepInWindow(prims, profiles, validate, prefix.0.stores, w.log, added, last.request, last.handling, number, t0);
    RunLast(prims, profiles, validate, w, steps);
  }

  /**
   * Starting with nothing counted for a number that has no profile, the first
   * ten requests in a window all get past the rate check.
   */
  lemma {:induction false} FirstTenPass(prims: Primitives, profiles: seq<string>, validate: Validator,
                                        w: World, steps: seq<Step>, number: string, t0: Instant)
    requires ValidSteps(steps) && InWindow(steps, number, t0) && |steps| <= RateLimit
    requires !CheckUserProfileExists(prims, profiles, number)
    requires CountRequests(prims, w.log, number, t0) == 0
    ensures var r := Run(prims, profiles, validate, w, steps);
      forall i :: 0 <= i < |steps| ==> PassedLimit(r.1[i])
    decreases |steps|
  {
    if |steps| > 0 {
      var init := steps[..|steps| - 1];
      InitInWindow(steps, number, t0);
      FirstTenPass(prims, profiles, validate, w, init, number, t0);
      NextAfterPassing(prims, profiles, validate, w, steps, number, t0);
      RunLast(prims, profiles, validate, w, steps);
      var prefix := Run(prims, profiles, validate, w, init);
      var r := Run(prims, profiles, validate, w, steps);
      AllPassSnoc(prefix.1, r.1[|steps| - 1]);
      assert r.1 == prefix.1 + [r.1[|steps| - 1]];
    }
  }

  lemma {:induction false} CountAllPassed(rs: seq<Response>)
    requires forall i :: 0 <= i < |rs| ==> PassedLimit(rs[i])
    ensures CountPassed(rs) == |rs|
    decreases |rs|
  {
    if |rs| > 0 {
      CountAllPassed(rs[..|rs| - 1]);
    }
  }

  /**
   * The tenth request in a window is accepted and the eleventh is refused
   * with 429.
   */
  lemma EleventhIsRefused(prims: Primitives, profiles: seq<string>, validate: Validator,
                          w: World, steps: seq<Step>, number: string, t0: Instant)
    requires ValidSteps(steps) && InWindow(steps, number, t0) && |steps| == RateLimit + 1
    requires !CheckUserProfileExists(prims, profiles, number)
    requires CountRequests(prims, w.log, number, t0) == 0
    ensures var r := Run(prims, profiles, validate, w, steps);
      && PassedLimit(r.1[RateLimit - 1])
      && r.1[RateLimit] == TooManyRequests
  {
    var init := steps[..RateLimit];
    InitInWindow(steps, number, t0);
    FirstTenPass(prims, profiles, validate, w, init, number, t0);
    NextAfterPassing(prims, profiles, validate, w, steps, number, t0);
    RunLast(prims, profiles, validate, w, steps);
  }

  // ------------------------------------------------- the log stamp as written

  /**
   * Requests of a process that has been up for more than 24 hours, logged as
   * written: every one is for `number`, handled at `t0` or later, and logged
   * with the one class-definition time `defined`, more than 24 hours before `t0`.
   */
  predicate AsWrittenSteps(steps: seq<Step>, number: string, defined: Instant, t0: Instant) {
    && defined < t0 - Window
    && forall i :: 0 <= i < |steps| ==>
         && steps[i].request.mobileNumber == Some(number)
         && t0 <= steps[i].handling.now
         && steps[i].handling.logStamp == defined
  }

  /** One such request passes the rate check and leaves nothing counted. */
  lemma StepAsWritten(prims: Primitives, profiles: seq<string>, validate: Validator, w: World,
                      req: Request, env: Handling, number: string, t0: Instant)
    requires ValidDraws(env.draws) && req.mobileNumber == Some(number)
    requires t0 <= env.now && env.logStamp < t0 - Window
    requires !CheckUserProfileExists(prims, profiles, number)
    requires CountRequests(prims, w.log, number, t0) == 0
    ensures var o := Post(prims, profiles, validate, w, req, env);
      PassedLimit(o.response) && CountRequests(prims, o.world.log, number, t0) == 0
  {
    var h := HashMobileNumber(prims, number);
    var record := [LogRecord(h, env.logStamp)];
    CountMatchingAntitone(w.log, h, t0, env.now);
    CountMatchingAppend(w.log, record, h, t0);
    CountMatchingNone(record, h, t0);
  }

  lemma InitAsWritten(steps: seq<Step>, number: string, defined: Instant, t0: Instant)
    requires ValidSteps(steps) && AsWrittenSteps(steps, number, defined, t0) && |steps| > 0
    ensures ValidSteps(steps[..|steps| - 1]) && AsWrittenSteps(steps[..|steps| - 1], number, defined, t0)
  {
  }

  /**
   * As written, the rate limit never fires once the process is a day old:
   * however many requests arrive for a number without a profile, every one
   * gets past the rate check (the eleventh and later ones included), and the
   * log still counts nothing for the number.
   */
  lemma {:induction false} AsWrittenRunNeverRefuses(prims: Primitives, profiles: seq<string>, validate: Validator,
                                                    w: World, steps: seq<Step>, number: string, defined: Instant, t0: Instant)
    requires ValidSteps(steps) && AsWrittenSteps(steps, number, defined, t0)
    requires !CheckUserProfileExists(prims, profiles, number)
    requires CountRequests(prims, w.log, number, t0) == 0
    ensures var r := Run(prims, profiles, validate, w, steps);
      && CountRequests(prims, r.0.log, number, t0) == 0
      && forall i :: 0 <= i < |steps| ==> PassedLimit(r.1[i])
    decreases |steps|
  {
    if |steps| > 0 {
      var init := steps[..|steps| - 1];
      var last := steps[|steps| - 1];
      InitAsWritten(steps, number, defined, t0);
      AsWrittenRunNeverRefuses(prims, profiles, validate, w, init, number, defined, t0);
      var prefix := Run(prims, profiles, validate, w, init);
      StepAsWritten(prims, profiles, validate, prefix.0, last.request, last.handling, number, t0);
      RunLast(prims, profiles, validate, w, steps);
      var o := Post(prims, profiles, validate, prefix.0, last.request, last.handling);
      AllPassSnoc(prefix.1, o.response);
    }
  }

  // ----------------------------------------------------------- OTP trigger

  /** How the HTTP call to the OTP-management service ended. */
  datatype HttpResult = Status(code: int) | RequestException

  /** The POST `trigger_otp_management` sends. */
  datatype OtpRequest = OtpRequest(
    url: Option<string>,
    documentId: string,
    encryptedMobileNumber: string,
    apiKeyHeader: Option<string>,
    contentType: string)

  /**
   * `trigger_otp_management`: posts the entry id and the ciphertext with the
   * shared key header; a non-200 status or a request exception is only logged.
   * It runs on its own thread after the response is built, so nothing it does
   * reaches the response.
   */
  function TriggerOtpManagement(url: Option<string>, apiKey: Option<string>, call: OtpCall, result: HttpResult)
    : (r: (OtpRequest, bool))
    ensures r.0.documentId == call.documentId && r.0.encryptedMobileNumber == call.encryptedMobileNumber
    ensures r.0.apiKeyHeader == apiKey && r.0.contentType == "application/json"
    ensures r.1 <==> result != Status(200)
  {
    var request := OtpRequest(url, call.documentId, call.encryptedMobileNumber, apiKey, "application/json");
    match result
    case Status(code) => (request, code != 200)
    case RequestException => (request, true)
  }

  /** The OTP service receives the stored ciphertext and the entry id of a created entry. */
  lemma OtpGetsCiphertext(prims: Primitives, profiles: seq<string>, validate: Validator, w: World,
                          req: Request, env: Handling, url: Option<string>, apiKey: Option<string>, result: HttpResult)
    requires ValidDraws(env.draws)
    requires Post(prims, profiles, validate, w, req, env).response.Created?
    ensures var o := Post(prims, profiles, validate, w, req, env);
      var sent := TriggerOtpManagement(url, apiKey, o.otp.value, result).0;
      && sent.documentId == o.response.body.id
      && sent.encryptedMobileNumber == o.response.body.mobileNumber
      && EncryptMobileNumber(prims, validate(req.mobileNumber.value).value, env.draws.key, env.draws.iv)
         == Ok(sent.encryptedMobileNumber)
  {
  }
}
